=== FILE: README.md ===
# Product admin console — decision rules in Dafny

A model of the behaviour of a React admin console for a product catalogue.
It has a login screen and a products page with a sortable, resizable,
selectable and paginated table, an inline add/edit row, a debounced search
box, a stock-level indicator and an image carousel. Behind these sit Redux
slices for the session and the product page. The view code is left out.
What remains is the state transitions the handlers and reducers perform.
Each is written as a pure Dafny function of the old state and one event,
with browser storage, time and network responses passed in as parameters.

Modules, one per source file, plus two shared ones:

- `Js` (js.dfy): the JavaScript semantics the rules depend on. This covers
  values and truthiness, `typeof`, `||`, `String`/`Number` on decimal text
  with NaN, `Array.prototype.slice`, the truncating `%`, ASCII lower-casing
  and the code-unit order of `<` on strings.
- `BrowserStorage` (storage.dfy): `localStorage`/`sessionStorage` as a map
  from key to stored value. JSON documents are kept in parsed form.
- `Utils` (utils.dfy): the three error type guards of `src/lib/utils.ts`.
- `UsersEmailLoginMap` (login_map.dfy): the e-mail to login table and its lookup.
- `UserSlice` (user_slice.dfy): the session reducer and its storage bootstrap.
- `Auth` (auth.dfy): the login form's submit handler.
- `ProductSlice` (product_slice.dfy): the product page reducer.
- `Table` (table.dfy): the data table. This covers the sort machine and its
  persistence, column widths and dragging, row selection, the footer
  arithmetic and the client-side sort-and-page view.
- `Pagination` (pagination.dfy): the page-number list and the prev/next buttons.
- `AddRow` (add_row.dfy): the inline add/edit row.
- `ProductQuery` (product_query.dfy): the products page controller. This is
  the filter, the page and the 400 ms debounced search, over timestamped events.
- `LevelBars` (level_bars.dfy): stock-level banding and lit bars.
- `Carousel` (carousel.dfy): the image viewer's navigation and spinner.

## Model

| member | source | states |
|---|---|---|
| `Js.Slice` | src/components/Table/index.tsx:403 | `slice` never lengthens the array. For in-range indices it is the sub-sequence, and an end past the array stops at its end. A negative begin counts from the end, and an end at or before the start gives the empty array. Every element is the one at `begin + k`. |
| `Js.Rem` | src/components/CarouselImage/index.tsx:31-37 | `%` agrees with the mathematical remainder on non-negative operands and lies in (-b, 0] on negative ones. |
| `Js.DigitsRoundTrip` | src/hooks/useProduct.ts:101 | Reading back the decimal spelling that `String` gives a natural number yields that number. |
| `Js.NumberStringRoundTrip` | src/hooks/useProduct.ts:101 | `Number(String(n))` is `n` for every natural `n`. |
| `Js.StrLessAsymmetric` | src/components/Table/index.tsx:185-190 | The comparator's `<` on strings never holds both ways. |
| `Js.StrLessConnected` | src/components/Table/index.tsx:185-191 | For two distinct strings, `<` holds one way or the other. |
| `BrowserStorage.SetItem` | src/hooks/useAuth.ts:41 | After `setItem`, the key holds the value and every other key is untouched. |
| `BrowserStorage.RemoveItem` | src/store/slices/user.ts:28 | After `removeItem`, the key is absent and every other key is untouched. |
| `Utils.FetchGuardCharacterised` | src/lib/utils.ts:21-25 | `isFetchBaseQueryError` holds iff the value is a non-null object with a `status` key. |
| `Utils.IsSerializedError` | src/lib/utils.ts:10-19 | A value that passes `isSerializedError` is an object. |
| `Utils.IsFetchBaseQueryError` | src/lib/utils.ts:21-25 | A value that passes `isFetchBaseQueryError` is an object. |
| `Utils.IsErrorWithMessage` | src/lib/utils.ts:27-36 | A value that passes `isErrorWithMessage` is an object and also passes `isSerializedError`. |
| `Utils.SerializedGuardCharacterised` | src/lib/utils.ts:10-19 | `isSerializedError` holds iff the value is a non-null object with at least one of `message`, `name`, `code` or `stack`. |
| `Utils.MessageGuardCharacterised` | src/lib/utils.ts:27-36 | `isErrorWithMessage` holds iff the value is a non-null object whose `message` is a string. That implies `isSerializedError`. |
| `Utils.NonObjectsSatisfyNoGuard` | src/lib/utils.ts:10-36 | `null`, `undefined`, booleans, numbers, strings and functions satisfy none of the three guards. |
| `Utils.GuardsOverlap` | src/lib/utils.ts:10-25 | An object can satisfy both the status guard and the serialized guard. Each guard can also hold without the other. |
| `UsersEmailLoginMap.Lookup` | src/store/api/usersEmailLoginMap.ts:38 | A hit is a table entry for that e-mail; a miss means no entry has that e-mail. |
| `UsersEmailLoginMap.TableShape` | src/store/api/usersEmailLoginMap.ts:4-35 | Every e-mail in the table is longer than 20 characters, and every login has 1 to 10 characters. So no login is an e-mail of the table. |
| `UsersEmailLoginMap.EmailsInjective` | src/store/api/usersEmailLoginMap.ts:4-35 | The 30 e-mails of the table are pairwise distinct. |
| `UsersEmailLoginMap.LoginsInjective` | src/store/api/usersEmailLoginMap.ts:4-35 | The 30 logins of the table are pairwise distinct. |
| `UsersEmailLoginMap.GetUserLoginByEmail` | src/store/api/usersEmailLoginMap.ts:37-39 | A listed e-mail yields its own login; an unlisted one is returned unchanged. |
| `UsersEmailLoginMap.LoginOfListed` | src/store/api/usersEmailLoginMap.ts:4-39 | Every table entry's e-mail is mapped to exactly that entry's login. |
| `UsersEmailLoginMap.LookupIdempotent` | src/store/api/usersEmailLoginMap.ts:4-39 | Applying the lookup twice is the same as applying it once, because no login is itself a key. |
| `UsersEmailLoginMap.LoginsDistinct` | src/store/api/usersEmailLoginMap.ts:4-39 | Two different listed e-mails are mapped to different logins. |
| `UsersEmailLoginMap.ListedAndUnlistedExamples` | src/store/api/usersEmailLoginMap.ts:5 | "emily.johnson@x.dummyjson.com" is mapped to "emilys", and an unlisted address is returned as is. |
| `UsersEmailLoginMap.GetUserLoginByEmailAsWritten` | src/store/api/usersEmailLoginMap.ts:37-39 | The bracket lookup as written returns the typed text for an e-mail that is neither listed nor inherited. |
| `UsersEmailLoginMap.AsWrittenReturnsFunction` | src/store/api/usersEmailLoginMap.ts:37-39 | As written, the input "constructor" yields the `Object` function, not a string. |
| `UsersEmailLoginMap.AsWrittenAgreesOffPrototype` | src/store/api/usersEmailLoginMap.ts:37-39 | Away from `Object.prototype` member names, the source's lookup and the own-key lookup agree. |
| `UserSlice.TruthyText` | src/store/slices/user.ts:15-16 | The fallback chain takes a stored non-empty text; an empty or missing entry falls through to the next storage. |
| `UserSlice.InitialState` | src/store/slices/user.ts:11-18 | user and accessToken start null. refreshToken is the non-empty localStorage value, else the non-empty sessionStorage value, else null. |
| `UserSlice.LogOut` | src/store/slices/user.ts:24-29 | `logOut` nulls user and both tokens and removes only the localStorage `refreshToken` entry. sessionStorage is not touched. |
| `UserSlice.Reduce` | src/store/slices/user.ts:31-57 | No fulfilled request clears the user. After a login or a getUser, the user record's tokens equal the store's tokens. A getUser leaves the store's tokens as they were. |
| `UserSlice.AuthUserInstallsUser` | src/store/slices/user.ts:32-39 | A fulfilled login sets the user to the payload and copies both tokens from it. |
| `UserSlice.RefreshKeepsUser` | src/store/slices/user.ts:40-46 | A fulfilled refresh replaces both tokens and leaves the user unchanged. |
| `UserSlice.GetUserKeepsTokens` | src/store/slices/user.ts:47-56 | A fulfilled getUser installs the payload's profile with the state's current tokens. The state's tokens are unchanged. |
| `UserSlice.RefreshDesynchronises` | src/store/slices/user.ts:40-56 | After a refresh, the user record's tokens lag the state's tokens until the next getUser re-synchronises them. |
| `UserSlice.RestoreAfterLogOut` | src/store/slices/user.ts:11-29 | After logging out, a reload restores the refresh token only from sessionStorage. |
| `Auth.BuildRequest` | src/hooks/useAuth.ts:29-36 | The username is the typed e-mail passed through the e-mail to login lookup. The request also carries the typed password, expiresInMins 15 and the `rememberme` argument. |
| `Auth.ErrorMessage` | src/hooks/useAuth.ts:44-52 | A status error yields its truthy `data.message`, else "Ошибка". Otherwise a serialized error yields its truthy `message`, else "Ошибка". Anything else yields "Системная ошибка\n" followed by `String(error)`. The message is never empty. |
| `Auth.HandleSubmit` | src/hooks/useAuth.ts:27-53 | The request is the same whatever the outcome. Only a success navigates, and always to "/products" unless the token write throws. Every success first shows the welcome toast. A failure shows exactly one error toast. At most one storage changes, and none changes without navigation. |
| `Auth.QueryErrorShowsItsMessage` | src/hooks/useAuth.ts:45-46 | A status error whose `data.message` is a non-empty string shows that string. |
| `Auth.SuccessStoresTokenOnce` | src/hooks/useAuth.ts:38-43 | On success there is one welcome toast and navigation to "/products". A non-empty refresh token goes to localStorage when the `isRememberMe` state is set and to sessionStorage otherwise. The `rememberme` argument does not affect this. |
| `Auth.SuccessWithoutTokenWritesNothing` | src/hooks/useAuth.ts:40-43 | A success without a refresh token writes no storage but still navigates. |
| `Auth.FailureIsReported` | src/hooks/useAuth.ts:44-52 | Every failure gives exactly one error toast with a non-empty message, no navigation and no storage change. |
| `Auth.RequestIsResolved` | src/hooks/useAuth.ts:29-36 | The request sent is the same whatever the outcome. |
| `Auth.StatusCheckWins` | src/hooks/useAuth.ts:45-51 | The status check is tried before the serialized-error check. A non-object error is stringified, with `null` giving "null". |
| `Auth.FailedWriteReportsBoth` | src/hooks/useAuth.ts:38-52 | If storing a non-empty refresh token throws, the welcome toast is followed by an error toast for the thrown value. There is no navigation and no storage change. Without a token to store, a throwing storage makes no difference. |
| `ProductSlice.AddToFront` | src/store/slices/product.ts:41-42 | `pop` then `unshift`: the added product comes first and the others shift down by one. A non-empty page keeps its length, and an empty page becomes a one-element page. |
| `ProductSlice.Reduce` | src/store/slices/product.ts:24-60 | Only a categories response changes the categories, and it leaves the products alone. Only a search response changes total, skip and limit. An edit, and an add to a non-empty page, keep the page length. |
| `ProductSlice.ReplaceById` | src/store/slices/product.ts:49-51 | Every product with the edited id is replaced by the payload, and every other product is kept in place. |
| `ProductSlice.SearchReplacesPage` | src/store/slices/product.ts:25-36 | A search result replaces products, skip, limit and total and keeps the categories. |
| `ProductSlice.AddKeepsCounters` | src/store/slices/product.ts:37-44 | An added product leaves total, skip, limit and categories unchanged. |
| `ProductSlice.EditReplacesMatching` | src/store/slices/product.ts:45-53 | An edit preserves the length and order of the page and changes exactly the matching positions. |
| `ProductSlice.EditIdempotent` | src/store/slices/product.ts:49-51 | Applying the same edit twice equals applying it once. |
| `ProductSlice.EditAbsentIsNoOp` | src/store/slices/product.ts:49-51 | An edit for an id not on the page leaves the page unchanged. |
| `ProductSlice.EditLeavesOnlyEditedVersion` | src/store/slices/product.ts:49-51 | After an edit, every product on the page with the edited id is the payload. |
| `ProductSlice.CategoriesTouchOnlyCategories` | src/store/slices/product.ts:12-18 | The store starts with an empty page and zero counters. A categories response replaces only the category list. |
| `Table.NextSort` | src/components/Table/index.tsx:196-216 | Clicking another column gives asc on it. Clicking the same column steps none→asc→desc→none. Once the direction is none, the key is "". |
| `Table.DecodeSort` | src/components/Table/index.tsx:144-149 | A persisted sort has direction asc or desc exactly when its `direction` field is that text. Its key is the `key` field when that is text, and "" otherwise. |
| `Table.NextSortPreservesWellFormed` | src/components/Table/index.tsx:198-216 | A click keeps "key is empty iff direction is undefined". |
| `Table.ReachableSortsWellFormed` | src/components/Table/index.tsx:80-83 | Every sort state reachable from a well-formed one by clicks on columns has an empty key exactly when it has no direction. |
| `Table.ThreeClicksRestore` | src/components/Table/index.tsx:80-83 | From the initial state, three clicks on one column give asc, then desc, then the initial state `{key:"", direction:undefined}` again. |
| `Table.SortCycleHasPeriodThree` | src/components/Table/index.tsx:196-216 | Three clicks on the active column return any well-formed sort state to itself. |
| `Table.HandleSort` | src/components/Table/index.tsx:217-231 | `onSort` receives the new sort state. `table-{id}-sort` then holds `{key, direction}` when a direction is set and is removed otherwise. Every other storage key is untouched. |
| `Table.MountSort` | src/components/Table/index.tsx:143-152 | On mount, a persisted document with at least one key is decoded into the state and reported to `onSort` as the same value. With no entry, or an empty document, the initial state stays and nothing is reported. |
| `Table.DecodeSortDoc` | src/components/Table/index.tsx:217-224 | Decoding the document written for a sort with a direction gives that sort back. |
| `Table.SortSurvivesRemount` | src/components/Table/index.tsx:143-152 | Remounting after a click restores the clicked sort state, including the cleared one. |
| `Table.DefaultWidths` | src/components/Table/index.tsx:92-96 | Without persisted widths, the map has exactly the columns' keys. |
| `Table.DefaultWidthOfLast` | src/components/Table/index.tsx:92-96 | When keys repeat, the last column with a key decides its `minWidth ?? 120`. |
| `Table.DefaultWidthsOfDistinct` | src/components/Table/index.tsx:92-96 | With distinct keys, every column gets its own `minWidth ?? 120`. |
| `Table.WidthsDoc` | src/components/Table/index.tsx:251 | The persisted document has exactly the keys of the widths map. |
| `Table.DecodeWidths` | src/components/Table/index.tsx:87-91 | Decoding keeps exactly the numeric fields of a persisted document. |
| `Table.PersistedEntryStart` | src/components/Table/index.tsx:84-98 | A drag on a column absent from the persisted document starts from NaN. A numeric entry starts from its number. |
| `Table.PersistedNullSnapsToMin` | src/components/Table/index.tsx:240-249 | A persisted `null` width (what `JSON.stringify` writes for NaN) is not kept as a width. A drag by +10 from it is clamped to the column's minimum of 130. |
| `Table.InitialWidths` | src/components/Table/index.tsx:84-98 | A persisted document with at least one key decides the widths, keeping its numeric entries. Otherwise each column gets `minWidth ?? 120`. |
| `Table.FindColumn` | src/components/Table/index.tsx:246 | The dragged column is found by key, or no column has that key. |
| `Table.DragBounds` | src/components/Table/index.tsx:247-248 | An unknown column is clamped to [60, 600]. |
| `Table.Clamp` | src/components/Table/index.tsx:249 | `min(max, max(min, x))` lies in [min, max] when min ≤ max, and is `x` when `x` is inside. |
| `Table.MoveWidth` | src/components/Table/index.tsx:246-249 | The new width lies within the column's bounds. It is `start + delta` when that is inside, and the nearer bound otherwise. |
| `Table.StartWidth` | src/components/Table/index.tsx:240 | A drag starts from the current width of the column when it has one. |
| `Table.OnMove` | src/components/Table/index.tsx:245-252 | A move sets only the dragged key, to the clamped `start + delta`. The result lies in [minWidth ?? 60, maxWidth ?? 600]. Other keys keep their widths, and `table-{id}-widths` holds the new map. |
| `Table.Drag` | src/components/Table/index.tsx:236-253 | A gesture with no pointer moves changes nothing. |
| `Table.DragLastMoveWins` | src/components/Table/index.tsx:236-253 | Every move is measured from the same start, so the last move alone decides the dragged width. The other columns keep theirs, and storage holds the final map. |
| `Table.WidthsDocRoundTrip` | src/components/Table/index.tsx:87-91 | Decoding the document written for a widths map gives the map back. |
| `Table.WidthsSurviveRemount` | src/components/Table/index.tsx:84-98 | After a drag, a remount initialises exactly the dragged widths. |
| `Table.NextWidthAsWritten` | src/components/Table/index.tsx:240-249 | As written, a drag that starts from an undefined width yields NaN. |
| `Table.DragOfUnpersistedColumnIsNaN` | src/components/Table/index.tsx:84-98 | With persisted widths for "title" only, dragging "price" by +10 gives NaN as written. |
| `Table.CorrectedDragStaysInBounds` | src/components/Table/index.tsx:245-252 | With the start width defaulting to the column's initial width, every drag stays within its bounds. |
| `Table.SelectAll` | src/components/Table/index.tsx:122-129 | Checking select-all selects exactly the ids of the data; unchecking selects nothing. |
| `Table.SelectRow` | src/components/Table/index.tsx:131-141 | A row click adds or removes that id and leaves every other id as it was. |
| `Table.RowIdsCount` | src/components/Table/index.tsx:125 | Rows with distinct ids give as many ids as rows. |
| `Table.WithFlags` | src/components/Table/index.tsx:154-164 | The flags keep the selection. "all" and "indeterminate" never hold together. An empty selection is never indeterminate, and is "all" only for no rows. Indeterminate means some but fewer than all rows are selected. |
| `Table.FlagsMatchRows` | src/components/Table/index.tsx:154-164 | For a selection of data ids: "all" holds iff every row is selected, and "indeterminate" holds iff some but not all rows are. |
| `Table.SubsetCardinality` | src/components/Table/index.tsx:155-157 | A subset of the same size as its superset is that set. |
| `Table.SelectAllThenDeselectOne` | src/components/Table/index.tsx:122-164 | Take at least two rows with distinct ids. Selecting all and then clearing one leaves every other row selected, with "all" off and "indeterminate" on. |
| `Table.OnDataChangeAsWritten` | src/components/Table/index.tsx:154-164 | As written, new data keeps the selection, and "all" holds exactly when the selection has as many ids as the data has rows. |
| `Table.CarriedSelectionChecksHeader` | src/components/Table/index.tsx:100-164 | Select all on one page, then show another page of the same size with other ids: as written, "all" holds although no shown row is selected. |
| `Table.OnDataChange` | src/components/Table/index.tsx:154-164 | Corrected: the selection kept across a data change is the selected ids among the shown rows. |
| `Table.CorrectedFlagsFollowShownRows` | src/components/Table/index.tsx:154-164 | Corrected: "all" holds iff every shown row was selected, and "indeterminate" iff some but not all shown rows were. |
| `Table.TotalPagesIsCeiling` | src/components/Table/index.tsx:105 | `ceil(total / rows)` is the least n with total ≤ n·rows. |
| `Table.FooterStart` | src/components/Table/index.tsx:108-111 | From page 1 with a non-negative row count, the footer starts at row 1 or later. |
| `Table.FooterEnd` | src/components/Table/index.tsx:112-115 | The footer end is at most the total and at most page·rows, and equals one of them. |
| `Table.FooterBounds` | src/components/Table/index.tsx:108-115 | For a page from 1 to totalPages: 1 ≤ start ≤ end ≤ total, and the footer spans at most `rows` rows. |
| `Table.FooterPagesTile` | src/components/Table/index.tsx:108-115 | When a page is not the last, the next page's footer starts right after this page's end. |
| `Table.MulMonotone` | src/components/Table/index.tsx:108-115 | Multiplying by a non-negative row count preserves order. |
| `Table.BeforeAsymmetric` | src/components/Table/index.tsx:178-191 | The comparator never puts two rows each before the other. |
| `Table.Insert` | src/components/Table/index.tsx:177-192 | Inserting a row adds exactly that row to the multiset of rows. |
| `Table.InsertOrdered` | src/components/Table/index.tsx:177-192 | Inserting into an ordered list keeps it ordered. |
| `Table.SortRows` | src/components/Table/index.tsx:177-192 | Sorting is a permutation of the rows, ordered by lower-cased text ascending for "asc" and descending otherwise. |
| `Table.SortedData` | src/components/Table/index.tsx:168-194 | With `onSort`, the data is used unchanged. Without it, at most `rows` rows are kept, and a page that starts inside the data is the window `[(p-1)·r, p·r)` of the data, sorted first when a key is set (`Table.UnsortedPageIsWindow`, `Table.SortedPageIsWindow`). No more rows than the data has are kept. |
| `Table.VisibleRows` | src/components/Table/index.tsx:168-403 | Without the add row, the rows shown are the sorted page. With it open, they are the sorted page from its second row up to `rows`, so at most `rows - 1` rows. With `onSort`, the sorted page is the data itself. Without it, at most `rows` rows are shown. |
| `Table.UnsortedPageIsWindow` | src/components/Table/index.tsx:172-175 | Unsorted, the page shown is the window `[(p-1)·r, p·r)` of the data, cut off at the data's end. |
| `Table.SortedPageIsWindow` | src/components/Table/index.tsx:176-193 | With a sort key and no `onSort`, the page shown is the window `[(p-1)·r, p·r)` of the sorted rows, cut off at the data's end. |
| `Table.SliceWithin` | src/components/Table/index.tsx:403 | A slice takes nothing that was not in the array. |
| `Table.VisibleRowsFromData` | src/components/Table/index.tsx:168-194 | Every row shown is a row of the data, counted with multiplicity. |
| `Table.SortedPageOrdered` | src/components/Table/index.tsx:177-193 | A page of sorted data is itself ordered. |
| `Table.SliceOfOrdered` | src/components/Table/index.tsx:193 | Any `slice` of ordered rows is ordered. |
| `Pagination.Range` | src/components/Pagination/index.tsx:27-33 | The loop pushes lo, lo+1, …, hi, or nothing when lo > hi. |
| `Pagination.IndexOf` | src/components/Pagination/index.tsx:37 | `indexOf` finds the first occurrence, or -1. |
| `Pagination.KeepFirstOfIncreasing` | src/components/Pagination/index.tsx:37 | The duplicate filter leaves a strictly increasing list unchanged. |
| `Pagination.RawPagesIncreasing` | src/components/Pagination/index.tsx:26-35 | 1, then the window, then the last page form a strictly increasing list. |
| `Pagination.GetVisiblePages` | src/components/Pagination/index.tsx:23-38 | The duplicate filter changes nothing, so the pages are 1, the window and the last page, strictly increasing. |
| `Pagination.VisiblePagesShape` | src/components/Pagination/index.tsx:23-38 | The list starts with 1 and, for more than one page, ends with totalPages. It is strictly increasing with at most 7 entries, and the middle entries lie in [max(2,p−2), min(totalPages−1,p+2)]. All entries are in [1,totalPages], and p is listed when it is in range. |
| `Pagination.Render` | src/components/Pagination/index.tsx:40-81 | Nothing is rendered iff totalPages ≤ 1. Prev is disabled iff p = 1, and next is disabled iff p = totalPages. |
| `Pagination.Press` | src/components/Pagination/index.tsx:50-81 | Prev emits nothing iff it is disabled, and next likewise. A number button emits iff it is listed. Prev emits p−1, next emits p+1, and a number button its own page. |
| `Pagination.ButtonsStayInRange` | src/components/Pagination/index.tsx:51-81 | Prev emits p−1 and next emits p+1 when enabled. Every emitted page lies in [1,totalPages]. |
| `Pagination.PageButtonRequestsItsPage` | src/components/Pagination/index.tsx:67 | A number button emits its own page. |
| `AddRow.InitialDraft` | src/components/AddRow/index.tsx:35-44 | The draft is `editRowData` when given, with its values as they are (numbers included). Otherwise every column key maps to the text "". |
| `AddRow.MarksOf` | src/components/AddRow/index.tsx:52-58 | Each required field is marked exactly when its value is empty or missing. |
| `AddRow.IsValidInput` | src/components/AddRow/index.tsx:49-64 | Valid iff every required field is filled, and always valid with no required fields. The required fields' marks become "empty or missing", and every other mark is unchanged. |
| `AddRow.OnConfirm` | src/components/AddRow/index.tsx:110-115 | `onAdd` receives the draft iff validation passes; otherwise nothing is emitted. |
| `AddRow.UpdateCell` | src/components/AddRow/index.tsx:98-103 | Typing stores that text for the column and changes no other column. The column counts as filled exactly when the typed text is non-empty. |
| `AddRow.RenderCell` | src/components/AddRow/index.tsx:81-97 | disabled iff editableFields is non-empty and lacks the column. `required` iff requiredFields is non-empty and lacks the column (inverted as written). not-valid iff there are required fields and the column is marked. A truthy draft value is shown as is, and anything else as "". |
| `AddRow.FailedConfirmFlagsEmptyRequired` | src/components/AddRow/index.tsx:49-64 | After a rejected confirm, a required cell shows not-valid iff it is empty. Other cells keep their flag. |
| `AddRow.FillAndResubmit` | src/components/AddRow/index.tsx:49-115 | An empty required title blocks the confirm and is marked. Filling it in lets the next confirm emit the filled draft. |
| `AddRow.ZeroPriceLooksEmpty` | src/components/AddRow/index.tsx:49-97 | A product with price 0 shows an empty price cell. With price required, its confirm is rejected and the price is marked, because 0 is falsy. |
| `ProductQuery.Initial` | src/hooks/useProduct.ts:45-61 | The initial filter is `{q:"", limit:"5", skip:"0"}` on page 1. It is fetched once, and a 400 ms timer is pending for the empty text. |
| `ProductQuery.SetFilter` | src/hooks/useProduct.ts:59-61 | Every new filter object is fetched. |
| `ProductQuery.Fire` | src/hooks/useProduct.ts:67-76 | A due timer with non-empty text sets page 1 and filter `{q, old limit, skip:"0"}`, dropping sortBy and order, and fetches it. Empty text changes nothing. |
| `ProductQuery.CatchUp` | src/hooks/useProduct.ts:67-76 | A timer that is due fires, and otherwise nothing changes. A timer still pending afterwards is not yet due. |
| `ProductQuery.ChangeText` | src/hooks/useProduct.ts:63-79 | Typing sets the search text and fetches nothing. It leaves the filter and the page alone. A new text replaces the pending timer with one for it due 400 ms later; the same text keeps the pending timer. |
| `ProductQuery.OnSort` | src/hooks/useProduct.ts:90-96 | `onSort` sets order and sortBy, keeps q, limit, skip and the page, and fetches. |
| `ProductQuery.SkipFor` | src/hooks/useProduct.ts:101 | The offset is "0" up to page 1 and "NaN" for a non-numeric limit. Otherwise it is the decimal text of (p−1)·limit. |
| `ProductQuery.OnPagination` | src/hooks/useProduct.ts:97-103 | `onPagination(p)` sets the page and the skip for p, keeps the other filter fields, and fetches. |
| `ProductQuery.OnRefresh` | src/hooks/useProduct.ts:114-116 | `onRefresh` re-sends the current filter and changes nothing else. |
| `ProductQuery.Step` | src/hooks/useProduct.ts:59-116 | An event only appends fetches, at most two. Typing sets the search text. Every other event ends by fetching the current filter. |
| `ProductQuery.Run` | src/hooks/useProduct.ts:59-116 | A sequence of events only appends fetches, at most two per event. |
| `ProductQuery.Flush` | src/hooks/useProduct.ts:67-78 | Once enough time passes, no timer is pending. |
| `ProductQuery.InitialSkipMatchesPage` | src/hooks/useProduct.ts:45-51 | Initially skip = (page−1)·limit. |
| `ProductQuery.FireKeepsSkip` | src/hooks/useProduct.ts:67-76 | A debounced search keeps skip = (page−1)·limit. |
| `ProductQuery.PaginationKeepsSkip` | src/hooks/useProduct.ts:97-103 | A page change to p ≥ 1 keeps skip = (page−1)·limit. |
| `ProductQuery.CatchUpKeepsSkip` | src/hooks/useProduct.ts:63-79 | Timers firing keep skip = (page−1)·limit. |
| `ProductQuery.StepKeepsSkip` | src/hooks/useProduct.ts:63-116 | Every event keeps skip = (page−1)·limit when page clicks are ≥ 1. |
| `ProductQuery.RunKeepsSkip` | src/hooks/useProduct.ts:45-116 | Any sequence of searches, sorts, refreshes and page clicks to pages ≥ 1 keeps skip = (page−1)·limit, also after pending timers fire. |
| `ProductQuery.BurstFetchesNothing` | src/hooks/useProduct.ts:67-78 | While every keystroke arrives before the previous timer is due, nothing is fetched and only the last text is pending. |
| `ProductQuery.BurstThenPauseFetchesOnce` | src/hooks/useProduct.ts:67-78 | A burst followed by a pause sends exactly one search: for the last text, on page 1, with the old limit. |
| `ProductQuery.TypingScenarios` | src/hooks/useProduct.ts:63-79 | Typing "a", "ab", "abc" within 400 ms of each other fetches only "abc". Pausing after "ab" fetches "ab" and then "abc". |
| `ProductQuery.SearchDropsSort` | src/hooks/useProduct.ts:70-74 | A debounced search clears the sort. A later sort keeps the query. |
| `LevelBars.FindBand` | src/components/LevelBars/index.tsx:42-44 | `find` returns a band containing the value, or none when no band contains it. |
| `LevelBars.GetLevel` | src/components/LevelBars/index.tsx:34-45 | 0..40 is low, 41..80 is medium and 81..100 is high. NaN and values outside [0,100] give undefined. |
| `LevelBars.EmptyTextIsLow` | src/components/LevelBars/index.tsx:41-43 | The string count "" reads as 0 and is low; a non-numeric string is undefined. |
| `LevelBars.BandsDisjoint` | src/components/LevelBars/index.tsx:34-38 | No value lies in two bands. |
| `LevelBars.GetLevelMonotone` | src/components/LevelBars/index.tsx:34-45 | On [0,100] a larger count never gives a lower level, and every count there has a level. |
| `LevelBars.LitBars` | src/components/LevelBars/index.tsx:21-26 | The lit bars are exactly those among 1..3 that `isActive` accepts. |
| `LevelBars.IsActive` | src/components/LevelBars/index.tsx:13-17 | Bar 1 is always lit. Bar 2 is lit iff the level is high or medium. Bar 3 is lit iff the level is high. |
| `LevelBars.LitBarsByLevel` | src/components/LevelBars/index.tsx:13-17 | High lights bars 1–3 and medium lights bars 1–2. Low and undefined light bar 1 only. |
| `LevelBars.OutOfRangeLooksLow` | src/components/LevelBars/index.tsx:13-45 | A count outside [0,100] lights the same single bar as a low count. |
| `Carousel.Next` | src/components/CarouselImage/index.tsx:31-33 | next stays in [0,n): it steps forward and wraps from the last image to 0. |
| `Carousel.Prev` | src/components/CarouselImage/index.tsx:35-37 | prev stays in [0,n): it steps back and wraps from 0 to the last image. |
| `Carousel.PrevUndoesNext` | src/components/CarouselImage/index.tsx:31-37 | prev(next(i)) = i and next(prev(i)) = i. |
| `Carousel.NextTimesAdvances` | src/components/CarouselImage/index.tsx:31-33 | k ≤ n presses of next advance by k, wrapping once. |
| `Carousel.FullTurnReturns` | src/components/CarouselImage/index.tsx:31-33 | n presses of next return to the starting image. |
| `Carousel.Handle` | src/components/CarouselImage/index.tsx:25-37 | The viewer is open iff it was just opened, or was open and not closed. The spinner is on iff it was just opened, or was on and the image has not loaded. open resets to initialIndex and a dot selects its index. next and prev step with wrap-around, close and load keep the index, and the index stays in range. |
| `Carousel.LoadingEffectAsWritten` | src/components/CarouselImage/index.tsx:39-42 | The effect as written turns the spinner on for a changed non-zero index. For index 0, or an unchanged index, it changes nothing. |
| `Carousel.WrapToFirstShowsNoSpinner` | src/components/CarouselImage/index.tsx:31-42 | As written, wrapping from the last image to the first leaves the spinner off. |
| `Carousel.LoadingEffect` | src/components/CarouselImage/index.tsx:39-42 | The corrected effect turns the spinner on for any change of index and otherwise changes nothing. |
| `Carousel.Step` | src/components/CarouselImage/index.tsx:21-74 | An event without a control on screen leaves the state unchanged. The thumbnail counts as a control only while the viewer is closed, because the open viewer is a full-screen overlay. |
| `Carousel.StepAsWritten` | src/components/CarouselImage/index.tsx:21-42 | As written, an event without a control on screen changes nothing. Index and open state are as in the corrected model, and the two agree whenever the new index is not 0. |
| `Carousel.OpenViewerIgnoresThumbnail` | src/components/CarouselImage/index.tsx:71-74 | A click at the thumbnail while the viewer is open changes nothing, as written and corrected. It does not send the viewer back to `initialIndex`. |
| `Carousel.ChangedImageShowsSpinner` | src/components/CarouselImage/index.tsx:25-42 | With the corrected effect, opening or changing the image always shows the spinner. |
| `Carousel.Mount` | src/components/CarouselImage/index.tsx:16-19 | The viewer starts closed on initialIndex. |
| `Carousel.CurrentStaysInRange` | src/components/CarouselImage/index.tsx:25-37 | From a valid initialIndex, no sequence of events moves the index out of [0,n). |
| `Carousel.NoImagesNoNavigation` | src/components/CarouselImage/index.tsx:21-23 | With no images, nothing can change the state. |
| `Carousel.Render` | src/components/CarouselImage/index.tsx:21-138 | With no images, a placeholder is shown. The viewer exists iff open. Arrows, dots and the counter "current+1 / n" appear only for n > 1, with exactly the current dot highlighted. |

## Left out

- Rendering, styling and `cn` (clsx/tailwind-merge): view markup with no decision in it.
- The network layer (RTK Query endpoints, `transformResponse`, the token-refresh plumbing). Responses are abstract inputs to the reducers, and the categories endpoint is an abstract action.
- `onAddRow` and `onEditRow` of the products controller. They forward the row to a mutation and toast on completion, which is promise plumbing.
- Promise ordering and concurrent requests. Each handler runs to completion on one outcome.
- Timers other than the search debounce: the progress animation of the request-progress hook and `requestAnimationFrame`.
- `FormattedAmount`, which relies on floating-point `toFixed` and ru-RU locale formatting.
- Routing, the protected route and the page containers, which are thin router wrappers.
- The presentational components. The Input component shown accepts only id, value, onChange, type, name, label, placeholder, className and clearable. The disabled, required and not-valid flags that AddRow computes are therefore modelled as computed and never reach the DOM.
- The table's own UI state for showing the add row and the row being edited, the progress bar, and the page-change pass-through.
- JSON text. Storage holds parsed documents, so `JSON.stringify` and `JSON.parse` are taken to be inverse.
- `null` and `undefined` are both `None` where the source only tests truthiness.
- Js.JsValue: numbers are integers. Fractional values, such as a price of 9.99 or a persisted width of 150.5, and their `String` spellings are not modelled, so neither is how such values sort, show or count as truthy.
- Js.NumberOfString: `Number` is modelled on plain decimal digit strings. Whitespace, signs, decimals, exponents and hexadecimal forms are read as NaN.
- Js.ToLower: lower-cases ASCII letters only, not all of Unicode.
- Js.StrLessConnected: compares whole characters, which agrees with UTF-16 code-unit order only for characters of the Basic Multilingual Plane.
- Table.DecodeWidths: a persisted entry that is not a number is dropped. `null` (what `JSON.stringify` writes for a NaN width) is treated by `Table.PersistedEntryStart`. A text entry, which `+` would concatenate, is not modelled.
- Auth.HandleSubmit: only a throwing `setItem` is modelled as a failure after the welcome toast. A throwing `navigate` is not.
- Table.SortRows: states a permutation ordered by the comparator, but not the stability of `Array.prototype.sort` among rows with equal text.
- Table.TotalPagesIsCeiling: requires a positive row count; a zero row count divides by zero (Infinity) in the source.
- LevelBars.GetLevel: integer counts only. A fractional count between two bands, such as 40.5, is undefined in the source and is not modelled.
- Carousel.Step: the preview-loading state (`isPreviewLoading`) is not modelled. So the thumbnail is not hidden after its preview fails to load, although the source hides it and the viewer can then no longer be opened.
- Carousel.Step: React's rule that hooks run in the same order on every render is not modelled. The component calls `useEffect` after the early return for an empty image list, so going from no images to some images is a React error that the model does not show.
- ProductQuery.Step: the fetch effect is modelled as one fetch per new filter object. React strict mode's double effects are not modelled, and neither is the `isFirstRender` ref, which nothing reads.

## Findings

| source | as written | input that shows it | evidently intended | confidence | as-written member | corrected member |
|---|---|---|---|---|---|---|
| src/store/api/usersEmailLoginMap.ts:37-39 | `userEmailList[email] \|\| email` also reads properties inherited from `Object.prototype` | e-mail "constructor" yields the `Object` function, which is sent as the username | only the table's own entries are looked up; anything else is returned unchanged | low (not executed) | `UsersEmailLoginMap.GetUserLoginByEmailAsWritten`, `UsersEmailLoginMap.AsWrittenReturnsFunction` | `UsersEmailLoginMap.GetUserLoginByEmail` (`LookupIdempotent`, `LoginOfListed`) |
| src/components/Table/index.tsx:84-98, 240-249 | a non-empty persisted widths map is used verbatim, and a drag starts from `widths[key]` | persisted `{"title":150}` under `table-productsTable-widths`, then a drag on "price" by +10 gives width NaN | a column missing from the persisted map starts from its default width, so the clamped width stays within its bounds | medium (not executed) | `Table.NextWidthAsWritten`, `Table.DragOfUnpersistedColumnIsNaN` | `Table.StartWidth` (`Table.CorrectedDragStaysInBounds`) |
| src/components/CarouselImage/index.tsx:39-42 | the loading effect returns early when `current` is falsy, so index 0 never turns the spinner on | three images, open on image 3 after it has loaded, press next: the index wraps to 0 and the spinner stays off while image 1 loads | every change of the shown image turns the spinner on until it loads | medium (not executed) | `Carousel.LoadingEffectAsWritten`, `Carousel.WrapToFirstShowsNoSpinner` | `Carousel.LoadingEffect` (`Carousel.ChangedImageShowsSpinner`) |
| src/components/Table/index.tsx:100, 154-164 | the selection lives across data changes, and "all" compares only its size with the row count | 5 rows per page; select all on page 1, then go to page 2: the header box stays checked while no row of page 2 is selected | the flags describe the rows on screen, so a selection carried to another page checks no box | medium (not executed) | `Table.OnDataChangeAsWritten`, `Table.CarriedSelectionChecksHeader` | `Table.OnDataChange` (`Table.CorrectedFlagsFollowShownRows`) |

=== FILE: add_row.dfy ===
/** The inline add/edit row: its draft, the required-field check that
    gates the confirm button, the per-cell edit and the flags each cell is
    rendered with. */
module AddRow {
  import opened Js
  import Utils
  import Table

  /** The row being edited: column key to value. A new row holds text, but
      a row opened for editing is the table's data row itself, whose fields
      may be numbers. A key may be missing. */
  type Draft = map<string, JsValue>

  /** The per-field "not valid" marks. */
  type Marks = map<string, bool>

  /** The initial draft: the edited row when there is one, otherwise an empty
      text under every column key. */
  function InitialDraft(columns: seq<Table.Column>, editRowData: Option<Draft>): (d: Draft)
    ensures editRowData.Some? ==> d == editRowData.value
    ensures editRowData.None? ==> d.Keys == Table.ColumnKeys(columns)
    ensures editRowData.None? ==> forall k :: k in d ==> d[k] == Str("")
  {
    match editRowData
    case Some(row) => row
    case None => map k | k in Table.ColumnKeys(columns) :: Str("")
  }

  /** `Boolean(row[key])`: present and truthy, so neither empty text nor
      the number 0. */
  predicate Filled(row: Draft, key: string) {
    key in row && Truthy(row[key])
  }

  /** The marks of one check: each required field is marked exactly when it
      is empty or missing. */
  function MarksOf(requiredFields: seq<string>, row: Draft): (m: Marks)
    ensures m.Keys == set i | 0 <= i < |requiredFields| :: requiredFields[i]
    ensures forall k :: k in m ==> (m[k] <==> !Filled(row, k))
  {
    map k | k in (set i | 0 <= i < |requiredFields| :: requiredFields[i]) :: !Filled(row, k)
  }

  datatype Validation = Validation(valid: bool, marks: Marks)

  /** `isValidInput()`: with no required fields the draft is valid and the
      marks stay as they were; otherwise the new marks are merged over the
      old ones and the draft is valid when none of them is set. */
  function IsValidInput(requiredFields: seq<string>, row: Draft, marks: Marks): (r: Validation)
    ensures requiredFields == [] ==> r == Validation(true, marks)
    ensures r.valid <==> forall i :: 0 <= i < |requiredFields| ==> Filled(row, requiredFields[i])
    ensures requiredFields != [] ==> forall i :: 0 <= i < |requiredFields| ==>
              requiredFields[i] in r.marks && (r.marks[requiredFields[i]] <==> !Filled(row, requiredFields[i]))
    ensures forall k :: k !in requiredFields ==> (k in r.marks <==> k in marks)
    ensures forall k :: k !in requiredFields && k in marks ==> r.marks[k] == marks[k]
  {
    if requiredFields == [] then Validation(true, marks)
    else
      var newMarks := MarksOf(requiredFields, row);
      assert forall i :: 0 <= i < |requiredFields| ==> requiredFields[i] in newMarks;
      Validation(!Utils.HasTrueValue(newMarks), marks + newMarks)
  }

  datatype Confirm = Confirm(marks: Marks, emitted: Option<Draft>)

  /** The confirm button: `onAdd(row)` only when the check passes. */
  function OnConfirm(requiredFields: seq<string>, row: Draft, marks: Marks): (r: Confirm)
    ensures r.emitted.Some? <==> forall i :: 0 <= i < |requiredFields| ==> Filled(row, requiredFields[i])
    ensures r.emitted.Some? ==> r.emitted.value == row
    ensures r.marks == IsValidInput(requiredFields, row, marks).marks
  {
    var v := IsValidInput(requiredFields, row, marks);
    Confirm(v.marks, if v.valid then Some(row) else None)
  }

  /** Typing into the cell of column `key`: the cell now holds the typed
      text, that column counts as filled exactly when the text is non-empty,
      and no other column changes. */
  function UpdateCell(row: Draft, key: string, value: string): (r: Draft)
    ensures key in r && r[key] == Str(value)
    ensures Filled(r, key) <==> value != ""
    ensures forall k :: k != key ==> (k in r <==> k in row) && (k in row ==> r[k] == row[k])
  {
    row[key := Str(value)]
  }

  /** What one cell is rendered with. */
  datatype Cell = Cell(disabled: bool, required: bool, isNotValid: bool, value: JsValue)

  function RenderCell(editableFields: seq<string>, requiredFields: seq<string>, marks: Marks,
                      row: Draft, key: string): (c: Cell)
    ensures c.disabled <==> editableFields != [] && key !in editableFields
    ensures c.required <==> requiredFields != [] && key !in requiredFields
    ensures c.isNotValid <==> requiredFields != [] && key in marks && marks[key]
    ensures Filled(row, key) ==> c.value == row[key]
    ensures !Filled(row, key) ==> c.value == Str("")
  {
    Cell(
      |editableFields| > 0 && key !in editableFields,
      |requiredFields| > 0 && key !in requiredFields,
      |requiredFields| > 0 && key in marks && marks[key],
      Or(if key in row then row[key] else Undefined, Str("")))
  }

  /** After a confirm that fails, the cells flagged as not valid are exactly
      the required cells left empty; the other cells keep their old flag. */
  lemma FailedConfirmFlagsEmptyRequired(editableFields: seq<string>, requiredFields: seq<string>,
                                        row: Draft, marks: Marks, key: string)
    requires OnConfirm(requiredFields, row, marks).emitted.None?
    ensures var m := OnConfirm(requiredFields, row, marks).marks;
            key in requiredFields ==> (RenderCell(editableFields, requiredFields, m, row, key).isNotValid <==> !Filled(row, key))
    ensures var m := OnConfirm(requiredFields, row, marks).marks;
            key !in requiredFields ==>
              RenderCell(editableFields, requiredFields, m, row, key).isNotValid
              == RenderCell(editableFields, requiredFields, marks, row, key).isNotValid
  {
    if key in requiredFields {
      var i :| 0 <= i < |requiredFields| && requiredFields[i] == key;
    }
  }

  /** A confirm with an empty required field emits nothing and marks that
      field; filling it in and confirming again emits the filled draft. */
  lemma FillAndResubmit()
    ensures var row := map["title" := Str(""), "price" := Str("10")];
            var first := OnConfirm(["title", "price"], row, map[]);
            && first.emitted.None?
            && first.marks == map["title" := true, "price" := false]
            && OnConfirm(["title", "price"], UpdateCell(row, "title", "Phone"), first.marks).emitted
               == Some(map["title" := Str("Phone"), "price" := Str("10")])
  {
    var row := map["title" := Str(""), "price" := Str("10")];
    var first := OnConfirm(["title", "price"], row, map[]);
    var req := ["title", "price"];
    assert req[0] == "title" && req[1] == "price";
    assert (set i | 0 <= i < |req| :: req[i]) == {"title", "price"};
    assert first.marks.Keys == {"title", "price"};
    var row2 := UpdateCell(row, "title", "Phone");
    assert row2 == map["title" := Str("Phone"), "price" := Str("10")];
  }

  /** A product opened for editing with a price of 0 shows an empty price
      cell, and confirming it unchanged marks the price as not filled and
      emits nothing, although the product has a price. */
  lemma ZeroPriceLooksEmpty(editableFields: seq<string>, product: Draft, marks: Marks)
    requires "price" in product && product["price"] == Num(0)
    ensures RenderCell(editableFields, ["price"], marks, product, "price").value == Str("")
    ensures var c := OnConfirm(["price"], product, marks);
            c.emitted.None? && "price" in c.marks && c.marks["price"]
  {
    var req := ["price"];
    assert req[0] == "price";
  }
}

=== FILE: auth.dfy ===
/** The login form's submit handler: it resolves the e-mail to a login
    name, sends the credentials, stores the refresh token on success and
    turns every failure into an error toast. */
module Auth {
  import opened Js
  import opened BrowserStorage
  import Utils
  import UsersEmailLoginMap
  import UserSlice

  const SessionMinutes := 15
  const ProductsRoute := "/products"
  const WelcomeText := "Добро пожаловать!"
  const GenericErrorText := "Ошибка"
  const SystemErrorPrefix := "Системная ошибка\n"

  datatype Credentials = Credentials(username: string, password: string, expiresInMins: int)

  /** The argument of the login mutation. */
  datatype LoginRequest = LoginRequest(credentials: Credentials, rememberme: bool)

  /** How the login request settled: the returned user, or the rejection. */
  datatype LoginOutcome = Fulfilled(user: UserSlice.User) | Rejected(error: JsValue)

  datatype Toast = SuccessToast(text: string) | ErrorToast(message: JsValue)

  /** Everything one submit does: the request it sends, the toasts it shows,
      both storages afterwards and the route it navigates to, if any. */
  datatype SubmitEffect = SubmitEffect(
    request: LoginRequest,
    toasts: seq<Toast>,
    local: Storage,
    session: Storage,
    navigateTo: Option<string>)

  function BuildRequest(email: string, password: string, rememberme: bool): (r: LoginRequest)
    ensures r.credentials.password == password && r.rememberme == rememberme
    ensures r.credentials.expiresInMins == 15
    ensures r.credentials.username == UsersEmailLoginMap.GetUserLoginByEmail(email)
    ensures UsersEmailLoginMap.Listed(email) ==> r.credentials.username != email
    ensures !UsersEmailLoginMap.Listed(email) ==> r.credentials.username == email
  {
    UsersEmailLoginMap.TableShape();
    LoginRequest(Credentials(UsersEmailLoginMap.GetUserLoginByEmail(email), password, SessionMinutes), rememberme)
  }

  /** The message of the error toast for a caught value: a query error
      shows its `data.message`, else a serialized error its `message`, else
      the value itself after a fixed prefix. The first two fall back to a
      generic text when the message is missing or empty. */
  function ErrorMessage(error: JsValue): (m: JsValue)
    ensures Truthy(m)
    ensures Utils.IsFetchBaseQueryError(error) ==>
              var dm := Member(Member(error, "data"), "message");
              && (Truthy(dm) ==> m == dm)
              && (!Truthy(dm) ==> m == Str(GenericErrorText))
    ensures !Utils.IsFetchBaseQueryError(error) && Utils.IsSerializedError(error) ==>
              var em := Member(error, "message");
              && (Truthy(em) ==> m == em)
              && (!Truthy(em) ==> m == Str(GenericErrorText))
    ensures !Utils.IsFetchBaseQueryError(error) && !Utils.IsSerializedError(error) ==>
              m == Str(SystemErrorPrefix + ToString(error))
  {
    if Utils.IsFetchBaseQueryError(error) then
      Or(Member(Member(error, "data"), "message"), Str(GenericErrorText))
    else if Utils.IsSerializedError(error) then
      Or(Member(error, "message"), Str(GenericErrorText))
    else
      Str(SystemErrorPrefix + ToString(error))
  }

  /** `handleSubmit(rememberme)` with the form's state and the request's
      outcome as parameters. The storage is chosen by the form's
      remember-me state; the handler's own argument only travels with the
      request. `writeError` is what `setItem` throws, if it throws (a full
      storage, say): the welcome toast has already been shown, and the same
      `catch` then reports the write error and skips the navigation. */
  function HandleSubmit(
    email: string, password: string, isRememberMe: bool, rememberme: bool,
    outcome: LoginOutcome, writeError: Option<JsValue>, local: Storage, session: Storage): (r: SubmitEffect)
    ensures r.request == BuildRequest(email, password, rememberme)
    ensures r.local == local || r.session == session
    ensures r.navigateTo.Some? ==> outcome.Fulfilled? && r.navigateTo.value == ProductsRoute
    ensures outcome.Fulfilled? && writeError.None? ==> r.navigateTo == Some(ProductsRoute)
    ensures outcome.Fulfilled? ==> |r.toasts| >= 1 && r.toasts[0] == SuccessToast(WelcomeText)
    ensures outcome.Rejected? ==>
              r.toasts == [ErrorToast(ErrorMessage(outcome.error))] && r.local == local && r.session == session
    ensures r.navigateTo.None? ==> r.local == local && r.session == session
  {
    var request := BuildRequest(email, password, rememberme);
    match outcome
    case Fulfilled(u) =>
      var token := u.refreshToken;
      var store := token.Some? && token.value != "";
      if store && writeError.Some? then
        SubmitEffect(request, [SuccessToast(WelcomeText), ErrorToast(ErrorMessage(writeError.value))],
                     local, session, None)
      else
        var local' := if store && isRememberMe then SetItem(local, UserSlice.RefreshTokenKey, Str(token.value)) else local;
        var session' := if store && !isRememberMe then SetItem(session, UserSlice.RefreshTokenKey, Str(token.value)) else session;
        SubmitEffect(request, [SuccessToast(WelcomeText)], local', session', Some(ProductsRoute))
    case Rejected(e) =>
      SubmitEffect(request, [ErrorToast(ErrorMessage(e))], local, session, None)
  }

  /** A successful login stores a non-empty refresh token in exactly one
      storage, chosen by the form state and not by the handler's argument,
      and goes to the product list. */
  lemma SuccessStoresTokenOnce(
    email: string, password: string, isRememberMe: bool, rememberme: bool,
    u: UserSlice.User, local: Storage, session: Storage, token: string)
    requires u.refreshToken == Some(token) && token != ""
    ensures var e := HandleSubmit(email, password, isRememberMe, rememberme, Fulfilled(u), None, local, session);
            && e.navigateTo == Some("/products")
            && e.toasts == [SuccessToast(WelcomeText)]
            && (isRememberMe ==> GetText(e.local, "refreshToken") == Some(token) && e.session == session)
            && (!isRememberMe ==> GetText(e.session, "refreshToken") == Some(token) && e.local == local)
            && e == HandleSubmit(email, password, isRememberMe, !rememberme, Fulfilled(u), None, local, session).(request := e.request)
  {
  }

  /** A login without a refresh token, or with an empty one, writes nothing. */
  lemma SuccessWithoutTokenWritesNothing(
    email: string, password: string, isRememberMe: bool, rememberme: bool,
    u: UserSlice.User, local: Storage, session: Storage)
    requires u.refreshToken.None? || u.refreshToken == Some("")
    ensures var e := HandleSubmit(email, password, isRememberMe, rememberme, Fulfilled(u), None, local, session);
            e.local == local && e.session == session && e.navigateTo == Some("/products")
  {
  }

  /** Every failure is caught: it leaves the storages alone, does not
      navigate, and shows exactly one error toast with a non-empty message. */
  lemma FailureIsReported(
    email: string, password: string, isRememberMe: bool, rememberme: bool,
    error: JsValue, writeError: Option<JsValue>, local: Storage, session: Storage)
    ensures var e := HandleSubmit(email, password, isRememberMe, rememberme, Rejected(error), writeError, local, session);
            && e.navigateTo.None? && e.local == local && e.session == session
            && |e.toasts| == 1 && e.toasts[0].ErrorToast? && Truthy(e.toasts[0].message)
  {
  }

  /** Either way the request carries the resolved login, the typed password
      and a fifteen-minute session. */
  lemma RequestIsResolved(
    email: string, password: string, isRememberMe: bool, rememberme: bool,
    outcome: LoginOutcome, writeError: Option<JsValue>, local: Storage, session: Storage)
    ensures var r := HandleSubmit(email, password, isRememberMe, rememberme, outcome, writeError, local, session).request;
            r == LoginRequest(Credentials(UsersEmailLoginMap.GetUserLoginByEmail(email), password, 15), rememberme)
  {
  }

  /** A refresh token that cannot be written turns the login into a
      welcome toast followed by an error toast, with no navigation and no
      storage change; a login with nothing to write never reaches `setItem`. */
  lemma FailedWriteReportsBoth(
    email: string, password: string, isRememberMe: bool, rememberme: bool,
    u: UserSlice.User, writeError: JsValue, local: Storage, session: Storage)
    ensures var e := HandleSubmit(email, password, isRememberMe, rememberme, Fulfilled(u), Some(writeError), local, session);
            && (u.refreshToken.Some? && u.refreshToken.value != "" ==>
                  && e.toasts == [SuccessToast(WelcomeText), ErrorToast(ErrorMessage(writeError))]
                  && e.navigateTo.None? && e.local == local && e.session == session)
            && (u.refreshToken.None? || u.refreshToken == Some("") ==>
                  e == HandleSubmit(email, password, isRememberMe, rememberme, Fulfilled(u), None, local, session))
  {
  }

  /** A query error whose `data.message` is non-empty text is reported with
      exactly that text, whatever else the error carries. */
  lemma QueryErrorShowsItsMessage(fields: map<string, JsValue>, text: string)
    requires "status" in fields && "data" in fields
    requires fields["data"].Object? && "message" in fields["data"].fields
    requires fields["data"].fields["message"] == Str(text) && text != ""
    ensures ErrorMessage(Object(fields)) == Str(text)
  {
  }

  /** An error that is both a query error and a serialized error is reported
      through its `data.message`, not its own `message`. */
  lemma StatusCheckWins()
    ensures ErrorMessage(Object(map["status" := Num(400), "message" := Str("outer"),
                                    "data" := Object(map["message" := Str("inner")])])) == Str("inner")
    ensures ErrorMessage(Object(map["status" := Num(500), "message" := Str("outer")])) == Str("Ошибка")
    ensures ErrorMessage(Object(map["name" := Str("AbortError")])) == Str("Ошибка")
    ensures ErrorMessage(Str("boom")) == Str("Системная ошибка\nboom")
    ensures ErrorMessage(Null) == Str("Системная ошибка\nnull")
  {
  }
}

=== FILE: carousel.dfy ===
/** The image carousel: a thumbnail that opens a full-screen viewer with
    wrap-around navigation, dot selection and a loading spinner. */
module Carousel {
  import opened Js

  /** `isOpen`, `current` and `isLoading` of the component. The number of
      images `n` and `initialIndex` are props and passed alongside. The
      fourth state variable, `isPreviewLoading`, only styles the thumbnail
      and is left out. */
  datatype State = State(isOpen: bool, current: int, isLoading: bool)

  datatype Event =
    | Open            // click on the thumbnail
    | Close           // the close button or the backdrop
    | NextImage       // the right arrow
    | PrevImage       // the left arrow
    | Dot(index: int) // a dot under the image
    | Settled         // the shown image fired load or error

  /** `next`: one step forward, wrapping to the first image. */
  function Next(n: int, i: int): (r: int)
    requires n > 0
    ensures 0 <= i < n ==> 0 <= r < n
    ensures 0 <= i < n - 1 ==> r == i + 1
    ensures i == n - 1 ==> r == 0
  {
    Rem(i + 1, n)
  }

  /** `prev`: one step back, wrapping to the last image. */
  function Prev(n: int, i: int): (r: int)
    requires n > 0
    ensures 0 <= i < n ==> 0 <= r < n
    ensures 0 < i < n ==> r == i - 1
    ensures i == 0 ==> r == n - 1
  {
    Rem(i - 1 + n, n)
  }

  lemma PrevUndoesNext(n: int, i: int)
    requires 0 <= i < n
    ensures Prev(n, Next(n, i)) == i
    ensures Next(n, Prev(n, i)) == i
  {
  }

  function NextTimes(n: int, i: int, k: nat): int
    requires n > 0
  {
    if k == 0 then i else Next(n, NextTimes(n, i, k - 1))
  }

  /** Up to one full turn and back to the start, `k` presses of the right
      arrow advance by `k`, wrapping once past the last image ... */
  lemma {:induction false} NextTimesAdvances(n: int, i: int, k: nat)
    requires 0 <= i < n
    requires k <= n
    ensures NextTimes(n, i, k) == if i + k < n then i + k else i + k - n
  {
    if k > 0 {
      NextTimesAdvances(n, i, k - 1);
    }
  }

  /** ... so `n` presses come back to the starting image. */
  lemma FullTurnReturns(n: int, i: int)
    requires 0 <= i < n
    ensures NextTimes(n, i, n) == i
  {
    NextTimesAdvances(n, i, n);
  }

  /** Which events have a control on screen: the thumbnail can be clicked
      only while the viewer is closed, since the open viewer covers the whole
      screen; the arrows and dots exist only in the open viewer of more than
      one image, the close button and the image only in the open viewer, and
      nothing but a placeholder exists when there are no images. */
  predicate Enabled(n: int, s: State, e: Event) {
    n > 0 &&
    match e
    case Open => !s.isOpen
    case Close => s.isOpen
    case Settled => s.isOpen
    case NextImage => s.isOpen && n > 1
    case PrevImage => s.isOpen && n > 1
    case Dot(i) => s.isOpen && n > 1 && 0 <= i < n
  }

  /** The state right after a handler, before effects run. */
  function Handle(n: int, initialIndex: int, s: State, e: Event): (r: State)
    requires n > 0
    ensures r.isOpen <==> e == Open || (s.isOpen && e != Close)
    ensures r.isLoading <==> e == Open || (s.isLoading && e != Settled)
    ensures e == Close || e == Settled ==> r.current == s.current
    ensures e == Open ==> r.current == initialIndex
    ensures e.Dot? ==> r.current == e.index
    ensures 0 <= s.current < n && 0 <= initialIndex < n && (e.Dot? ==> 0 <= e.index < n) ==>
              0 <= r.current < n
    ensures e == NextImage ==> r.current == Next(n, s.current)
    ensures e == PrevImage ==> r.current == Prev(n, s.current)
  {
    match e
    case Open => s.(current := initialIndex, isLoading := true, isOpen := true)
    case Close => s.(isOpen := false)
    case Settled => s.(isLoading := false)
    case NextImage => s.(current := Next(n, s.current))
    case PrevImage => s.(current := Prev(n, s.current))
    case Dot(i) => s.(current := i)
  }

  /** The effect on `[current]` as written: it turns the spinner on only
      when the new index is truthy, that is, not 0. */
  function LoadingEffectAsWritten(before: State, after: State): (r: State)
    ensures r.isOpen == after.isOpen && r.current == after.current
    ensures after.current != before.current && after.current != 0 ==> r.isLoading
    ensures after.current == 0 || after.current == before.current ==> r == after
  {
    if after.current != before.current && after.current != 0 then after.(isLoading := true) else after
  }

  /** One user event as written. An event without a control leaves the
      state alone. */
  function StepAsWritten(n: int, initialIndex: int, s: State, e: Event): (r: State)
    ensures !Enabled(n, s, e) ==> r == s
    ensures r.current == Step(n, initialIndex, s, e).current && r.isOpen == Step(n, initialIndex, s, e).isOpen
    ensures Step(n, initialIndex, s, e).current != 0 ==> r == Step(n, initialIndex, s, e)
  {
    if Enabled(n, s, e) then LoadingEffectAsWritten(s, Handle(n, initialIndex, s, e)) else s
  }

  /** A click where the thumbnail sits lands on the open viewer's backdrop,
      so it does not send the viewer back to `initialIndex`. */
  lemma OpenViewerIgnoresThumbnail(n: int, initialIndex: int, current: int, isLoading: bool)
    ensures var s := State(true, current, isLoading);
            Step(n, initialIndex, s, Open) == s && StepAsWritten(n, initialIndex, s, Open) == s
  {
  }

  /** Moving forward from the last image to the first leaves the spinner
      off while the first image loads. */
  lemma WrapToFirstShowsNoSpinner()
    ensures var s := StepAsWritten(3, 0, State(true, 2, false), NextImage);
            s.current == 0 && !s.isLoading
  {
  }

  /** The effect as evidently intended: any change of the shown image turns
      the spinner on. */
  function LoadingEffect(before: State, after: State): (r: State)
    ensures r.isOpen == after.isOpen && r.current == after.current
    ensures after.current != before.current ==> r.isLoading
    ensures after.current == before.current ==> r == after
  {
    if after.current != before.current then after.(isLoading := true) else after
  }

  function Step(n: int, initialIndex: int, s: State, e: Event): (r: State)
    ensures !Enabled(n, s, e) ==> r == s
  {
    if Enabled(n, s, e) then LoadingEffect(s, Handle(n, initialIndex, s, e)) else s
  }

  /** With the corrected effect, every event that changes the shown image,
      the first one included, leaves the spinner on until the image settles. */
  lemma ChangedImageShowsSpinner(n: int, initialIndex: int, s: State, e: Event)
    requires Enabled(n, s, e)
    requires Step(n, initialIndex, s, e).current != s.current || e == Open
    ensures Step(n, initialIndex, s, e).isLoading
  {
  }

  /** The state after mount: the `[current]` effect also runs once then. */
  function Mount(n: int, initialIndex: int): (s: State)
    ensures !s.isOpen && s.current == initialIndex
  {
    State(false, initialIndex, n > 0 && initialIndex != 0)
  }

  function Run(n: int, initialIndex: int, s: State, es: seq<Event>): State
    decreases |es|
  {
    if es == [] then s else Run(n, initialIndex, Step(n, initialIndex, s, es[0]), es[1..])
  }

  /** Starting from a valid `initialIndex`, the shown index never leaves
      [0, n), whatever the user does. */
  lemma {:induction false} CurrentStaysInRange(n: int, initialIndex: int, s: State, es: seq<Event>)
    requires 0 <= initialIndex < n
    requires 0 <= s.current < n
    ensures 0 <= Run(n, initialIndex, s, es).current < n
    decreases |es|
  {
    if es != [] {
      var t := Step(n, initialIndex, s, es[0]);
      assert 0 <= t.current < n;
      CurrentStaysInRange(n, initialIndex, t, es[1..]);
    }
  }

  /** With no images, no event changes anything. */
  lemma NoImagesNoNavigation(initialIndex: int, s: State, es: seq<Event>)
    ensures Run(0, initialIndex, s, es) == s
    decreases |es|
  {
    if es != [] {
      NoImagesNoNavigation(initialIndex, s, es[1..]);
    }
  }

  /** The open viewer: the index of the image shown, the spinner, whether
      the arrows are there, one flag per dot (set on the current one) and
      the "current+1 / n" counter shown under the dots. */
  datatype Viewer = Viewer(index: int, spinner: bool, arrows: bool, dots: seq<bool>, counter: Option<(int, int)>)

  datatype View = Placeholder | Thumbnail(viewer: Option<Viewer>)

  function Render(n: nat, s: State): (v: View)
    ensures v.Placeholder? <==> n == 0
    ensures v.Thumbnail? ==> (v.viewer.Some? <==> s.isOpen)
    ensures v.Thumbnail? && v.viewer.Some? ==>
              var w := v.viewer.value;
              && w.index == s.current
              && w.spinner == s.isLoading
              && (w.arrows <==> n > 1)
              && (n > 1 ==> |w.dots| == n && forall i :: 0 <= i < n ==> (w.dots[i] <==> i == s.current))
              && (n <= 1 ==> w.dots == [] && w.counter.None?)
              && (n > 1 ==> w.counter == Some((s.current + 1, n)))
  {
    if n == 0 then Placeholder
    else if !s.isOpen then Thumbnail(None)
    else if n == 1 then Thumbnail(Some(Viewer(s.current, s.isLoading, false, [], None)))
    else Thumbnail(Some(Viewer(s.current, s.isLoading, true,
                               seq(n, i => i == s.current), Some((s.current + 1, n)))))
  }
}

=== FILE: js.dfy ===
/** The fragments of JavaScript semantics that the console's decision rules
    lean on: dynamically typed values and their truthiness, `typeof`,
    property reads, `String(...)`, `Number(...)` on decimal text,
    `Array.prototype.slice`, the truncating `%`, ASCII lower-casing and the
    code-unit order of `<` on strings. */
module Js {

  datatype Option<T> = None | Some(value: T) {
    function GetOr(default: T): T {
      match this
      case Some(v) => v
      case None => default
    }
  }

  /** A JavaScript value as far as the console inspects it. A function is
      known only by its name; symbols, bigints and arrays never reach the
      modelled rules. */
  datatype JsValue =
    | Undefined
    | Null
    | Bool(b: bool)
    | Num(n: int)
    | Str(s: string)
    | Object(fields: map<string, JsValue>)
    | Function(name: string)

  /** `Boolean(v)`: false, 0, "", null and undefined are falsy. */
  predicate Truthy(v: JsValue) {
    match v
    case Undefined => false
    case Null => false
    case Bool(b) => b
    case Num(n) => n != 0
    case Str(s) => s != ""
    case Object(_) => true
    case Function(_) => true
  }

  /** `typeof v`, including the historical quirk that `typeof null` is "object". */
  function TypeOf(v: JsValue): string {
    match v
    case Undefined => "undefined"
    case Null => "object"
    case Bool(_) => "boolean"
    case Num(_) => "number"
    case Str(_) => "string"
    case Object(_) => "object"
    case Function(_) => "function"
  }

  /** The `in` operator, `k in v`, for a `v` that is a non-null object. */
  predicate HasKey(v: JsValue, k: string)
    requires v.Object?
  {
    k in v.fields
  }

  /** `v?.[k]`: a missing property, or any property of a non-object, reads
      as undefined. */
  function Member(v: JsValue, k: string): (r: JsValue)
    ensures !v.Object? ==> r == Undefined
    ensures v.Object? && k !in v.fields ==> r == Undefined
  {
    if v.Object? && k in v.fields then v.fields[k] else Undefined
  }

  /** `a || b` on JavaScript values. */
  function Or(a: JsValue, b: JsValue): (r: JsValue)
    ensures r == a || r == b
    ensures Truthy(a) ==> r == a
    ensures Truthy(r) <==> Truthy(a) || Truthy(b)
  {
    if Truthy(a) then a else b
  }

  // ---------------------------------------------------------------------
  // Decimal text

  predicate IsDigit(c: char) {
    '0' <= c <= '9'
  }

  predicate IsDigits(s: string) {
    forall i :: 0 <= i < |s| ==> IsDigit(s[i])
  }

  function DigitChar(d: nat): (c: char)
    requires d < 10
    ensures IsDigit(c)
  {
    ['0', '1', '2', '3', '4', '5', '6', '7', '8', '9'][d]
  }

  function DigitValue(c: char): (d: nat)
    requires IsDigit(c)
    ensures d < 10
  {
    (c as int - '0' as int) as nat
  }

  lemma DigitRoundTrip(d: nat)
    requires d < 10
    ensures DigitValue(DigitChar(d)) == d
  {
  }

  /** The shortest decimal spelling of `n`. */
  function NatToDigits(n: nat): (s: string)
    ensures |s| >= 1
    ensures IsDigits(s)
    ensures n >= 10 ==> s[0] != '0'
    ensures n < 10 ==> |s| == 1
    decreases n
  {
    if n < 10 then [DigitChar(n)] else NatToDigits(n / 10) + [DigitChar(n % 10)]
  }

  /** The value a string of decimal digits denotes (the empty string denotes 0). */
  function DigitsValue(s: string): (n: nat)
    requires IsDigits(s)
    decreases |s|
  {
    if s == [] then 0 else DigitsValue(s[..|s| - 1]) * 10 + DigitValue(s[|s| - 1])
  }

  /** Reading back the spelling of a number yields that number. */
  lemma {:induction false} DigitsRoundTrip(n: nat)
    ensures DigitsValue(NatToDigits(n)) == n
    decreases n
  {
    var s := NatToDigits(n);
    if n < 10 {
      DigitRoundTrip(n);
    } else {
      var p := NatToDigits(n / 10);
      assert s == p + [DigitChar(n % 10)];
      assert s[..|s| - 1] == p;
      DigitsRoundTrip(n / 10);
      DigitRoundTrip(n % 10);
    }
  }

  /** Distinct numbers are spelled differently. */
  lemma DigitsInjective(m: nat, n: nat)
    requires NatToDigits(m) == NatToDigits(n)
    ensures m == n
  {
    DigitsRoundTrip(m);
    DigitsRoundTrip(n);
  }

  // ---------------------------------------------------------------------
  // Numbers

  /** A JavaScript number restricted to the integers, plus NaN. */
  datatype Number = Finite(i: int) | NaN

  /** `String(x)` for a number. */
  function NumberToString(x: Number): (s: string)
    ensures x == NaN ==> s == "NaN"
    ensures x.Finite? && x.i >= 0 ==> IsDigits(s) && DigitsValue(s) == x.i
  {
    match x
    case NaN => "NaN"
    case Finite(i) =>
      if i >= 0 then DigitsRoundTrip(i); NatToDigits(i) else "-" + NatToDigits(-i)
  }

  /** `Number(s)` for a string: the empty string is 0, a digit string is its
      value and any other text is NaN. */
  function NumberOfString(s: string): (x: Number)
    ensures x.Finite? <==> IsDigits(s)
    ensures x.Finite? ==> x.i >= 0
  {
    if IsDigits(s) then Finite(DigitsValue(s)) else NaN
  }

  /** `Number(v)` where `v` is an optional string-valued field: undefined is NaN. */
  function NumberOfOptional(s: Option<string>): Number {
    match s
    case None => NaN
    case Some(t) => NumberOfString(t)
  }

  /** A non-negative number survives `Number(String(n))`. */
  lemma NumberStringRoundTrip(n: nat)
    ensures NumberOfString(NumberToString(Finite(n))) == Finite(n)
  {
    DigitsRoundTrip(n);
  }

  /** Multiplication of JavaScript numbers: NaN is absorbing. */
  function Mul(a: Number, b: Number): (r: Number)
    ensures r.NaN? <==> a.NaN? || b.NaN?
    ensures a.Finite? && b.Finite? ==> r == Finite(a.i * b.i)
  {
    if a.Finite? && b.Finite? then Finite(a.i * b.i) else NaN
  }

  /** `String(v)` for the value kinds the console stringifies. */
  function ToString(v: JsValue): string {
    match v
    case Undefined => "undefined"
    case Null => "null"
    case Bool(b) => if b then "true" else "false"
    case Num(n) => NumberToString(Finite(n))
    case Str(s) => s
    case Object(_) => "[object Object]"
    case Function(name) => "function " + name + "() { [native code] }"
  }

  // ---------------------------------------------------------------------
  // Arrays and arithmetic

  /** The index `Array.prototype.slice` uses for a possibly negative argument. */
  function SliceIndex(i: int, len: nat): (k: nat)
    ensures k <= len
    ensures 0 <= i <= len ==> k == i
    ensures i > len ==> k == len
  {
    if i < 0 then (if len + i < 0 then 0 else len + i) else if i > len then len else i
  }

  /** `s.slice(begin, end)`: negative indices count from the end and every
      index is clamped to the array. */
  function Slice<T>(s: seq<T>, begin: int, end: int): (r: seq<T>)
    ensures |r| <= |s|
    ensures 0 <= begin <= end <= |s| ==> r == s[begin..end]
    ensures 0 <= begin <= |s| <= end ==> r == s[begin..]
    ensures -|s| <= begin < 0 && |s| <= end ==> r == s[|s| + begin..]
    ensures 0 <= end <= begin ==> r == []
    ensures 0 <= begin && 0 <= end ==> |r| <= end - begin || r == []
    ensures 0 <= begin && 0 <= end ==>
              forall k :: 0 <= k < |r| ==> begin + k < |s| && r[k] == s[begin + k]
  {
    var b := SliceIndex(begin, |s|);
    var e := SliceIndex(end, |s|);
    if b < e then s[b..e] else []
  }

  /** `a % b` with JavaScript's truncating semantics (the result takes the
      sign of `a`). */
  function Rem(a: int, b: int): (r: int)
    requires b > 0
    ensures a >= 0 ==> r == a % b && 0 <= r < b
    ensures a < 0 ==> -b < r <= 0
  {
    if a >= 0 then a % b else -((-a) % b)
  }

  // ---------------------------------------------------------------------
  // Strings

  /** `toLowerCase` restricted to ASCII letters. */
  function LowerChar(c: char): (d: char)
    ensures 'A' <= c <= 'Z' ==> 'a' <= d <= 'z' && d as int == c as int + 32
    ensures !('A' <= c <= 'Z') ==> d == c
  {
    if 'A' <= c <= 'Z' then (c as int + 32) as char else c
  }

  function ToLower(s: string): (t: string)
    ensures |t| == |s|
    ensures forall i :: 0 <= i < |s| ==> t[i] == LowerChar(s[i])
  {
    seq(|s|, i requires 0 <= i < |s| => LowerChar(s[i]))
  }

  /** `a < b` on strings: lexicographic by character code, a proper prefix
      being smaller. */
  predicate StrLess(a: string, b: string)
    decreases |a|
  {
    if b == [] then false
    else if a == [] then true
    else if a[0] != b[0] then a[0] < b[0]
    else StrLess(a[1..], b[1..])
  }

  /** `<` on strings is a strict order: never both ways ... */
  lemma {:induction false} StrLessAsymmetric(a: string, b: string)
    ensures !(StrLess(a, b) && StrLess(b, a))
    decreases |a|
  {
    if a != [] && b != [] && a[0] == b[0] {
      StrLessAsymmetric(a[1..], b[1..]);
    }
  }

  /** ... and for distinct strings one way or the other. */
  lemma {:induction false} StrLessConnected(a: string, b: string)
    ensures a == b || StrLess(a, b) || StrLess(b, a)
    decreases |a|
  {
    if a != [] && b != [] && a[0] == b[0] {
      StrLessConnected(a[1..], b[1..]);
      if a[1..] == b[1..] {
        assert a == [a[0]] + a[1..] && b == [b[0]] + b[1..];
      }
    }
  }

  lemma {:induction false} StrLessIrreflexive(a: string)
    ensures !StrLess(a, a)
    decreases |a|
  {
    if a != [] {
      StrLessIrreflexive(a[1..]);
    }
  }
}

=== FILE: level_bars.dfy ===
/** The stock-level indicator: banding a count into low/medium/high and
    lighting one, two or three bars. */
module LevelBars {
  import opened Js

  datatype Level = Low | Medium | High

  /** One entry of the `range` table: the closed interval [min, max]. */
  datatype Band = Band(level: Level, min: int, max: int)

  /** The bands in the insertion order of the `range` object. */
  const Ranges: seq<Band> := [Band(Low, 0, 40), Band(Medium, 41, 80), Band(High, 81, 100)]

  predicate InBand(b: Band, x: Number) {
    x.Finite? && b.min <= x.i && x.i <= b.max
  }

  /** `Array.prototype.find` over the bands: the first one containing `x`. */
  function FindBand(bands: seq<Band>, x: Number): (r: Option<Level>)
    ensures r.None? <==> forall i :: 0 <= i < |bands| ==> !InBand(bands[i], x)
    ensures r.Some? ==> exists i :: 0 <= i < |bands| && InBand(bands[i], x) && bands[i].level == r.value
  {
    if bands == [] then None
    else if InBand(bands[0], x) then Some(bands[0].level)
    else FindBand(bands[1..], x)
  }

  /** `getLevel(count)` where `x` is `Number(count)`; a comparison with NaN
      is false, so NaN matches no band. */
  function GetLevel(x: Number): (r: Option<Level>)
    ensures r == Some(Low) <==> x.Finite? && 0 <= x.i <= 40
    ensures r == Some(Medium) <==> x.Finite? && 41 <= x.i <= 80
    ensures r == Some(High) <==> x.Finite? && 81 <= x.i <= 100
    ensures r.None? <==> x.NaN? || x.i < 0 || x.i > 100
  {
    assert Ranges[1..] == [Band(Medium, 41, 80), Band(High, 81, 100)];
    assert Ranges[1..][1..] == [Band(High, 81, 100)];
    assert Ranges[1..][1..][1..] == [];
    assert FindBand(Ranges[1..][1..], x) == if InBand(Band(High, 81, 100), x) then Some(High) else None;
    assert FindBand(Ranges[1..], x)
        == if InBand(Band(Medium, 41, 80), x) then Some(Medium) else FindBand(Ranges[1..][1..], x);
    FindBand(Ranges, x)
  }

  /** `getLevel` on a string count goes through `Number`, under which the
      empty string is 0. */
  lemma EmptyTextIsLow()
    ensures GetLevel(NumberOfString("")) == Some(Low)
    ensures GetLevel(NumberOfString("abc")).None?
  {
    assert !IsDigit("abc"[0]);
  }

  /** No count lies in two bands. */
  lemma BandsDisjoint(x: Number, i: int, j: int)
    requires 0 <= i < |Ranges| && 0 <= j < |Ranges|
    requires InBand(Ranges[i], x) && InBand(Ranges[j], x)
    ensures i == j
  {
  }

  function Rank(l: Option<Level>): nat {
    match l
    case None => 0
    case Some(Low) => 0
    case Some(Medium) => 1
    case Some(High) => 2
  }

  /** On [0, 100] a larger count never yields a lower level. */
  lemma GetLevelMonotone(a: int, b: int)
    requires 0 <= a <= b <= 100
    ensures Rank(GetLevel(Finite(a))) <= Rank(GetLevel(Finite(b)))
    ensures GetLevel(Finite(a)).Some? && GetLevel(Finite(b)).Some?
  {
  }

  /** `isActive(barIndex)`: undefined falls through to the low rule. */
  predicate IsActive(level: Option<Level>, bar: int)
    ensures bar == 1 ==> IsActive(level, bar)
    ensures bar == 2 ==> (IsActive(level, bar) <==> level == Some(High) || level == Some(Medium))
    ensures bar == 3 ==> (IsActive(level, bar) <==> level == Some(High))
  {
    if level == Some(High) then true
    else if level == Some(Medium) then bar <= 2
    else bar == 1
  }

  /** The bars that are lit among 1, 2 and 3. */
  function LitBars(level: Option<Level>): (r: set<int>)
    ensures forall b :: b in r <==> 1 <= b <= 3 && IsActive(level, b)
  {
    set b | b in {1, 2, 3} && IsActive(level, b)
  }

  /** High lights all three bars, medium the lower two, and low or an
      undefined level only the first. */
  lemma LitBarsByLevel()
    ensures LitBars(Some(High)) == {1, 2, 3}
    ensures LitBars(Some(Medium)) == {1, 2}
    ensures LitBars(Some(Low)) == LitBars(None) == {1}
  {
    assert 3 in LitBars(Some(High)) && 2 in LitBars(Some(Medium));
  }

  /** A count outside [0, 100] lights the same single bar as a low one. */
  lemma OutOfRangeLooksLow(x: int, y: int)
    requires x < 0 || x > 100
    requires 0 <= y <= 40
    ensures LitBars(GetLevel(Finite(x))) == LitBars(GetLevel(Finite(y))) == {1}
  {
    LitBarsByLevel();
  }
}

=== FILE: login_map.dfy ===
/** The static table that turns a user's e-mail into the login name the
    remote API expects, with the e-mail itself as the fallback. */
module UsersEmailLoginMap {
  import opened Js

  /** The table's entries, e-mail first, in the order they are written. */
  const UserEmailList: seq<(string, string)> := [
    ("emily.johnson@x.dummyjson.com", "emilys"),
    ("michael.williams@x.dummyjson.com", "michaelw"),
    ("sophia.brown@x.dummyjson.com", "sophiab"),
    ("james.davis@x.dummyjson.com", "jamesd"),
    ("emma.miller@x.dummyjson.com", "emmaj"),
    ("olivia.wilson@x.dummyjson.com", "oliviaw"),
    ("alexander.jones@x.dummyjson.com", "alexanderj"),
    ("ava.taylor@x.dummyjson.com", "avat"),
    ("ethan.martinez@x.dummyjson.com", "ethanm"),
    ("isabella.anderson@x.dummyjson.com", "isabellad"),
    ("liam.garcia@x.dummyjson.com", "liamg"),
    ("mia.rodriguez@x.dummyjson.com", "miar"),
    ("noah.hernandez@x.dummyjson.com", "noahh"),
    ("charlotte.lopez@x.dummyjson.com", "charlottem"),
    ("william.gonzalez@x.dummyjson.com", "williamg"),
    ("avery.perez@x.dummyjson.com", "averyp"),
    ("evelyn.sanchez@x.dummyjson.com", "evelyns"),
    ("logan.torres@x.dummyjson.com", "logant"),
    ("abigail.rivera@x.dummyjson.com", "abigailr"),
    ("jackson.evans@x.dummyjson.com", "jacksone"),
    ("madison.collins@x.dummyjson.com", "madisonc"),
    ("elijah.stewart@x.dummyjson.com", "elijahs"),
    ("chloe.morales@x.dummyjson.com", "chloem"),
    ("mateo.nguyen@x.dummyjson.com", "mateon"),
    ("harper.kelly@x.dummyjson.com", "harpere"),
    ("evelyn.gonzalez@x.dummyjson.com", "evelyng"),
    ("daniel.cook@x.dummyjson.com", "danielc"),
    ("lily.lee@x.dummyjson.com", "lilyb"),
    ("henry.hill@x.dummyjson.com", "henryh"),
    ("addison.wright@x.dummyjson.com", "addisonw")
  ]

  /** The login an own entry of the table gives `email`, if any. */
  function Lookup(entries: seq<(string, string)>, email: string): (r: Option<string>)
    ensures r.Some? ==> exists i :: 0 <= i < |entries| && entries[i] == (email, r.value)
    ensures r.None? ==> forall i :: 0 <= i < |entries| ==> entries[i].0 != email
  {
    if entries == [] then None
    else if entries[0].0 == email then Some(entries[0].1)
    else
      var r := Lookup(entries[1..], email);
      assert r.Some? ==> entries[1..][0] in entries[1..];
      r
  }

  predicate Listed(email: string) {
    exists i :: 0 <= i < |UserEmailList| && UserEmailList[i].0 == email
  }

  /** Every e-mail of the table is longer than every login, and no login is
      empty. */
  lemma TableShape()
    ensures forall i :: 0 <= i < |UserEmailList| ==> |UserEmailList[i].0| > 20
    ensures forall i :: 0 <= i < |UserEmailList| ==> 0 < |UserEmailList[i].1| <= 10
  {
  }

  /** No two entries share an e-mail. The proof compares the entries in five
      groups, one fixed entry at a time, to keep each comparison small. */
  lemma EmailsInjective(i: int, j: int)
    requires 0 <= i < j < |UserEmailList|
    ensures UserEmailList[i].0 != UserEmailList[j].0
  {
    if i < 5 {
      EmailsInjective0(i, j);
    } else if i < 10 {
      EmailsInjective1(i, j);
    } else if i < 15 {
      EmailsInjective2(i, j);
    } else if i < 20 {
      EmailsInjective3(i, j);
    } else if i < 29 {
      EmailsInjective4(i, j);
    }
  }

  lemma EmailsInjective0(i: int, j: int)
    requires 0 <= i < 5 && i < j < |UserEmailList|
    ensures UserEmailList[i].0 != UserEmailList[j].0
  {
    if i == 0 {
    } else if i == 1 {
    } else if i == 2 {
    } else if i == 3 {
    }
  }

  lemma EmailsInjective1(i: int, j: int)
    requires 5 <= i < 10 && i < j < |UserEmailList|
    ensures UserEmailList[i].0 != UserEmailList[j].0
  {
    if i == 5 {
    } else if i == 6 {
    } else if i == 7 {
    } else if i == 8 {
    }
  }

  lemma EmailsInjective2(i: int, j: int)
    requires 10 <= i < 15 && i < j < |UserEmailList|
    ensures UserEmailList[i].0 != UserEmailList[j].0
  {
    if i == 10 {
    } else if i == 11 {
    } else if i == 12 {
    } else if i == 13 {
    }
  }

  lemma EmailsInjective3(i: int, j: int)
    requires 15 <= i < 20 && i < j < |UserEmailList|
    ensures UserEmailList[i].0 != UserEmailList[j].0
  {
    if i == 15 {
    } else if i == 16 {
    } else if i == 17 {
    } else if i == 18 {
    }
  }

  lemma EmailsInjective4(i: int, j: int)
    requires 20 <= i < 29 && i < j < |UserEmailList|
    ensures UserEmailList[i].0 != UserEmailList[j].0
  {
    if i == 20 {
    } else if i == 21 {
    } else if i == 22 {
    } else if i == 23 {
    } else if i == 24 {
    } else if i == 25 {
    } else if i == 26 {
    } else if i == 27 {
    }
  }

  /** No two entries share a login. The proof compares the entries in five
      groups, one fixed entry at a time, to keep each comparison small. */
  lemma LoginsInjective(i: int, j: int)
    requires 0 <= i < j < |UserEmailList|
    ensures UserEmailList[i].1 != UserEmailList[j].1
  {
    if i < 5 {
      LoginsInjective0(i, j);
    } else if i < 10 {
      LoginsInjective1(i, j);
    } else if i < 15 {
      LoginsInjective2(i, j);
    } else if i < 20 {
      LoginsInjective3(i, j);
    } else if i < 29 {
      LoginsInjective4(i, j);
    }
  }

  lemma LoginsInjective0(i: int, j: int)
    requires 0 <= i < 5 && i < j < |UserEmailList|
    ensures UserEmailList[i].1 != UserEmailList[j].1
  {
    if i == 0 {
    } else if i == 1 {
    } else if i == 2 {
    } else if i == 3 {
    }
  }

  lemma LoginsInjective1(i: int, j: int)
    requires 5 <= i < 10 && i < j < |UserEmailList|
    ensures UserEmailList[i].1 != UserEmailList[j].1
  {
    if i == 5 {
    } else if i == 6 {
    } else if i == 7 {
    } else if i == 8 {
    }
  }

  lemma LoginsInjective2(i: int, j: int)
    requires 10 <= i < 15 && i < j < |UserEmailList|
    ensures UserEmailList[i].1 != UserEmailList[j].1
  {
    if i == 10 {
    } else if i == 11 {
    } else if i == 12 {
    } else if i == 13 {
    }
  }

  lemma LoginsInjective3(i: int, j: int)
    requires 15 <= i < 20 && i < j < |UserEmailList|
    ensures UserEmailList[i].1 != UserEmailList[j].1
  {
    if i == 15 {
    } else if i == 16 {
    } else if i == 17 {
    } else if i == 18 {
    }
  }

  lemma LoginsInjective4(i: int, j: int)
    requires 20 <= i < 29 && i < j < |UserEmailList|
    ensures UserEmailList[i].1 != UserEmailList[j].1
  {
    if i == 20 {
    } else if i == 21 {
    } else if i == 22 {
    } else if i == 23 {
    } else if i == 24 {
    } else if i == 25 {
    } else if i == 26 {
    } else if i == 27 {
    }
  }

  /** `userEmailList[email] || email` with own keys only: the login of a
      listed e-mail, and the e-mail itself otherwise. */
  function GetUserLoginByEmail(email: string): (login: string)
    ensures Listed(email) ==>
              exists i :: 0 <= i < |UserEmailList| && UserEmailList[i] == (email, login)
    ensures !Listed(email) ==> login == email
  {
    TableShape();
    match Lookup(UserEmailList, email)
    case Some(l) => if l != "" then l else email
    case None => email
  }

  /** A listed e-mail's login is the one its entry gives. */
  lemma LoginOfListed(i: int)
    requires 0 <= i < |UserEmailList|
    ensures GetUserLoginByEmail(UserEmailList[i].0) == UserEmailList[i].1
  {
    var email := UserEmailList[i].0;
    var l := GetUserLoginByEmail(email);
    TableShape();
    var k :| 0 <= k < |UserEmailList| && UserEmailList[k] == (email, l);
    if k != i {
      if k < i { EmailsInjective(k, i); } else { EmailsInjective(i, k); }
    }
  }

  /** Looking a login up again changes nothing, because no login is itself
      an e-mail of the table. */
  lemma {:induction false} LookupIdempotent(email: string)
    ensures GetUserLoginByEmail(GetUserLoginByEmail(email)) == GetUserLoginByEmail(email)
  {
    var l := GetUserLoginByEmail(email);
    if Listed(email) {
      TableShape();
      var i :| 0 <= i < |UserEmailList| && UserEmailList[i] == (email, l);
      assert !Listed(l);
    }
  }

  /** Distinct listed e-mails belong to distinct logins. */
  lemma LoginsDistinct(a: string, b: string)
    requires Listed(a) && Listed(b) && a != b
    ensures GetUserLoginByEmail(a) != GetUserLoginByEmail(b)
  {
    var i :| 0 <= i < |UserEmailList| && UserEmailList[i].0 == a;
    var j :| 0 <= j < |UserEmailList| && UserEmailList[j].0 == b;
    LoginOfListed(i);
    LoginOfListed(j);
    if i < j { LoginsInjective(i, j); } else { LoginsInjective(j, i); }
  }

  lemma ListedAndUnlistedExamples()
    ensures GetUserLoginByEmail("emily.johnson@x.dummyjson.com") == "emilys"
    ensures GetUserLoginByEmail("new@x.dummyjson.com") == "new@x.dummyjson.com"
  {
    LoginOfListed(0);
    TableShape();
    assert !Listed("new@x.dummyjson.com");
  }

  // ---------------------------------------------------------------------
  // The lookup as written reads inherited properties too

  /** The members every plain object inherits from `Object.prototype`. */
  function InheritedMember(key: string): (v: JsValue)
    ensures v != Undefined ==> Truthy(v) && !v.Str?
  {
    if key == "__proto__" then Object(map[])
    else if key == "constructor" then Function("Object")
    else if key in ["toString", "toLocaleString", "valueOf", "hasOwnProperty",
                    "isPrototypeOf", "propertyIsEnumerable", "__defineGetter__",
                    "__defineSetter__", "__lookupGetter__", "__lookupSetter__"]
    then Function(key)
    else Undefined
  }

  /** `userEmailList[email] || email` exactly as the source evaluates it: the
      bracket read falls through to `Object.prototype` for a key the table
      does not own. */
  function GetUserLoginByEmailAsWritten(email: string): (r: JsValue)
    ensures !Listed(email) && InheritedMember(email) == Undefined ==> r == Str(email)
  {
    var own := match Lookup(UserEmailList, email)
      case Some(l) => Str(l)
      case None => InheritedMember(email);
    Or(own, Str(email))
  }

  /** The discrepancy: the "e-mail" `constructor` is sent on as the `Object`
      function instead of a login name. */
  lemma AsWrittenReturnsFunction()
    ensures GetUserLoginByEmailAsWritten("constructor") == Function("Object")
    ensures !GetUserLoginByEmailAsWritten("constructor").Str?
  {
    TableShape();
    assert !Listed("constructor");
  }

  /** Away from inherited names, the source's lookup and the own-key lookup
      agree. */
  lemma AsWrittenAgreesOffPrototype(email: string)
    requires InheritedMember(email) == Undefined
    ensures GetUserLoginByEmailAsWritten(email) == Str(GetUserLoginByEmail(email))
  {
  }
}

=== FILE: pagination.dfy ===
/** The pagination footer: the condensed list of page buttons around the
    current page, and the pages the previous, next and number buttons
    request. */
module Pagination {
  import opened Js

  /** How many pages either side of the current one are listed. */
  const Delta := 2

  function Max(a: int, b: int): int {
    if a >= b then a else b
  }

  function Min(a: int, b: int): int {
    if a <= b then a else b
  }

  /** The integers `lo`, `lo + 1`, ..., `hi`. */
  function Range(lo: int, hi: int): (r: seq<int>)
    ensures |r| == if lo <= hi then hi - lo + 1 else 0
    ensures forall i :: 0 <= i < |r| ==> r[i] == lo + i
    decreases hi - lo + 1
  {
    if lo > hi then [] else [lo] + Range(lo + 1, hi)
  }

  /** The window of pages around the current one, never the first or the last. */
  function Window(current: int, totalPages: int): seq<int> {
    Range(Max(2, current - Delta), Min(totalPages - 1, current + Delta))
  }

  /** The list before duplicates are filtered out: page 1, the window and,
      when there is more than one page, the last page. */
  function RawPages(current: int, totalPages: int): seq<int> {
    [1] + Window(current, totalPages) + (if totalPages > 1 then [totalPages] else [])
  }

  /** `array.indexOf(x)`: the first index holding `x`, or -1. */
  function IndexOf(s: seq<int>, x: int): (k: int)
    ensures -1 <= k < |s|
    ensures k >= 0 ==> s[k] == x && forall j :: 0 <= j < k ==> s[j] != x
    ensures k == -1 ==> forall j :: 0 <= j < |s| ==> s[j] != x
  {
    if s == [] then -1
    else if s[0] == x then 0
    else
      var k := IndexOf(s[1..], x);
      if k == -1 then -1 else k + 1
  }

  /** `s.filter((page, index, array) => array.indexOf(page) === index)`, on
      the entries from index `from` on. */
  function KeepFirstFrom(s: seq<int>, from: nat): seq<int>
    requires from <= |s|
    decreases |s| - from
  {
    if from == |s| then []
    else (if IndexOf(s, s[from]) == from then [s[from]] else []) + KeepFirstFrom(s, from + 1)
  }

  function KeepFirstOccurrences(s: seq<int>): seq<int> {
    KeepFirstFrom(s, 0)
  }

  predicate StrictlyIncreasing(s: seq<int>) {
    forall i, j :: 0 <= i < j < |s| ==> s[i] < s[j]
  }

  /** On a list without repeats the filter keeps every entry. */
  lemma {:induction false} KeepFirstOfIncreasing(s: seq<int>, from: nat)
    requires from <= |s| && StrictlyIncreasing(s)
    ensures KeepFirstFrom(s, from) == s[from..]
    decreases |s| - from
  {
    if from < |s| {
      assert IndexOf(s, s[from]) == from;
      KeepFirstOfIncreasing(s, from + 1);
      assert s[from..] == [s[from]] + s[from + 1..];
    }
  }

  /** `getVisiblePages()`: the duplicate filter never removes anything,
      because the raw list is already strictly increasing. */
  function GetVisiblePages(current: int, totalPages: int): (r: seq<int>)
    ensures r == RawPages(current, totalPages)
    ensures StrictlyIncreasing(r)
  {
    var raw := RawPages(current, totalPages);
    RawPagesIncreasing(current, totalPages);
    KeepFirstOfIncreasing(raw, 0);
    assert raw[0..] == raw;
    KeepFirstOccurrences(raw)
  }

  lemma RawPagesIncreasing(current: int, totalPages: int)
    ensures StrictlyIncreasing(RawPages(current, totalPages))
  {
    var w := Window(current, totalPages);
    var r := RawPages(current, totalPages);
    forall i, j | 0 <= i < j < |r| ensures r[i] < r[j] {
      if i > 0 && j <= |w| {
        assert r[i] == w[i - 1] && r[j] == w[j - 1];
      } else if i > 0 {
        assert r[i] == w[i - 1];
      }
    }
  }

  lemma RawPagesEnds(current: int, totalPages: int)
    ensures var r := RawPages(current, totalPages);
            && |r| >= 1 && r[0] == 1 && |r| <= 7
            && (totalPages > 1 ==> r[|r| - 1] == totalPages)
  {
    assert |Window(current, totalPages)| <= 5;
  }

  lemma RawPagesMiddle(current: int, totalPages: int)
    ensures var r := RawPages(current, totalPages);
            forall i :: 0 < i < |r| - 1 ==> Max(2, current - Delta) <= r[i] <= Min(totalPages - 1, current + Delta)
  {
    var raw := RawPages(current, totalPages);
    var w := Window(current, totalPages);
    forall i | 0 < i < |raw| - 1
      ensures Max(2, current - Delta) <= raw[i] <= Min(totalPages - 1, current + Delta)
    {
      if i <= |w| {
        assert raw[i] == w[i - 1];
      }
    }
  }

  lemma RawPagesInRange(current: int, totalPages: int)
    requires totalPages >= 1
    ensures var r := RawPages(current, totalPages);
            forall i :: 0 <= i < |r| ==> 1 <= r[i] <= totalPages
  {
    var raw := RawPages(current, totalPages);
    var w := Window(current, totalPages);
    forall i | 0 <= i < |raw| ensures 1 <= raw[i] <= totalPages {
      if 0 < i <= |w| {
        assert raw[i] == w[i - 1];
      }
    }
  }

  lemma RawPagesHaveCurrent(current: int, totalPages: int)
    requires 1 <= current <= totalPages
    ensures current in RawPages(current, totalPages)
  {
    var raw := RawPages(current, totalPages);
    var w := Window(current, totalPages);
    if current == 1 {
      assert raw[0] == current;
    } else if current == totalPages {
      assert raw[|raw| - 1] == current;
    } else {
      var k := current - Max(2, current - Delta);
      assert w[k] == current;
      assert raw[k + 1] == current;
    }
  }

  /** The shape of the list: it opens with page 1, closes with the last
      page when there is more than one, is strictly increasing (so free of
      duplicates), has at most seven entries, keeps every middle entry
      inside the window of the current page, and lists the current page
      whenever that page exists. */
  lemma VisiblePagesShape(current: int, totalPages: int)
    ensures var r := GetVisiblePages(current, totalPages);
            && r == RawPages(current, totalPages)
            && |r| >= 1 && r[0] == 1
            && (totalPages > 1 ==> r[|r| - 1] == totalPages)
            && StrictlyIncreasing(r)
            && |r| <= 7
            && (forall i :: 0 < i < |r| - 1 ==>
                  Max(2, current - Delta) <= r[i] <= Min(totalPages - 1, current + Delta))
            && (totalPages >= 1 ==> forall i :: 0 <= i < |r| ==> 1 <= r[i] <= totalPages)
            && (1 <= current <= totalPages ==> current in r)
  {
    var raw := RawPages(current, totalPages);
    RawPagesIncreasing(current, totalPages);
    KeepFirstOfIncreasing(raw, 0);
    assert raw[0..] == raw;
    RawPagesEnds(current, totalPages);
    RawPagesMiddle(current, totalPages);
    if totalPages >= 1 {
      RawPagesInRange(current, totalPages);
    }
    if 1 <= current <= totalPages {
      RawPagesHaveCurrent(current, totalPages);
    }
  }

  // ---------------------------------------------------------------------
  // The rendered footer and its buttons

  datatype View = View(
    current: int,
    totalPages: int,
    startPage: int,
    endPage: int,
    totalCount: int,
    pages: seq<int>,
    prevDisabled: bool,
    nextDisabled: bool)

  /** The footer renders nothing when there is at most one page. */
  function Render(current: int, totalPages: int, totalCount: int, startPage: int, endPage: int): (r: Option<View>)
    ensures r.None? <==> totalPages <= 1
    ensures r.Some? ==> r.value.prevDisabled == (current == 1) && r.value.nextDisabled == (current == totalPages)
    ensures r.Some? ==> (startPage, endPage, totalCount) == (r.value.startPage, r.value.endPage, r.value.totalCount)
  {
    if totalPages <= 1 then None
    else Some(View(current, totalPages, startPage, endPage, totalCount,
                   GetVisiblePages(current, totalPages), current == 1, current == totalPages))
  }

  datatype Button = Prev | Next | PageButton(page: int)

  /** The page a click requests from the parent; a disabled button, or a
      number the footer does not show, requests nothing. */
  function Press(v: View, b: Button): (r: Option<int>)
    ensures b == Prev ==> (r.None? <==> v.prevDisabled)
    ensures b == Next ==> (r.None? <==> v.nextDisabled)
    ensures b.PageButton? ==> (r.Some? <==> b.page in v.pages)
    ensures r.Some? ==> || (b == Prev && r.value == v.current - 1)
                        || (b == Next && r.value == v.current + 1)
                        || (b.PageButton? && r.value == b.page)
  {
    match b
    case Prev => if v.prevDisabled then None else Some(v.current - 1)
    case Next => if v.nextDisabled then None else Some(v.current + 1)
    case PageButton(p) => if p in v.pages then Some(p) else None
  }

  /** Previous is inert exactly on the first page and next exactly on the
      last; otherwise they step by one. Within the page range, every
      request names an existing page. */
  lemma ButtonsStayInRange(current: int, totalPages: int, totalCount: int, startPage: int, endPage: int, b: Button)
    requires totalPages > 1
    ensures var v := Render(current, totalPages, totalCount, startPage, endPage).value;
            && (Press(v, Prev).None? <==> current == 1)
            && (Press(v, Next).None? <==> current == totalPages)
            && (Press(v, Prev).Some? ==> Press(v, Prev).value == current - 1)
            && (Press(v, Next).Some? ==> Press(v, Next).value == current + 1)
            && (1 <= current <= totalPages && Press(v, b).Some? ==> 1 <= Press(v, b).value <= totalPages)
  {
    var v := Render(current, totalPages, totalCount, startPage, endPage).value;
    VisiblePagesShape(current, totalPages);
    if b.PageButton? && b.page in v.pages {
      var i :| 0 <= i < |v.pages| && v.pages[i] == b.page;
    }
  }

  lemma PageButtonRequestsItsPage(v: View, p: int)
    requires p in v.pages
    ensures Press(v, PageButton(p)) == Some(p)
  {
  }
}

=== FILE: product_query.dfy ===
/** The products page controller: the filter sent to the search endpoint,
    the current page, and the 400 ms debounce between the search box and the
    filter. Time is an explicit millisecond stamp on each event, and every
    `trigger(filter)` call is recorded in `fetches`. */
module ProductQuery {
  import opened Js
  import Table

  const DebounceMs := 400

  /** The search request. `limit` and `skip` are decimal text, as sent. */
  datatype Filter = Filter(q: string, limit: string, skip: string,
                           sortBy: Option<string>, order: Option<Table.Direction>)

  const InitialFilter := Filter("", "5", "0", None, None)

  /** A scheduled `setTimeout`: when it fires and the text it captured. */
  datatype Timer = Timer(deadline: int, text: string)

  datatype Controller = Controller(searchValue: string, filter: Filter, page: int,
                                   pending: Option<Timer>, fetches: seq<Filter>)

  /** The state after mount: the fetch effect has sent the initial filter and
      the debounce effect has scheduled a timer for the empty text. */
  function Initial(mountTime: int): (c: Controller)
    ensures c.filter == Filter("", "5", "0", None, None) && c.page == 1
    ensures c.fetches == [c.filter]
    ensures c.pending == Some(Timer(mountTime + DebounceMs, ""))
  {
    Controller("", InitialFilter, 1, Some(Timer(mountTime + DebounceMs, "")), [InitialFilter])
  }

  /** `setFilterParams`: a new filter object, which the fetch effect sends. */
  function SetFilter(c: Controller, f: Filter): (r: Controller)
    ensures r.filter == f && r.fetches == c.fetches + [f]
    ensures r.searchValue == c.searchValue && r.page == c.page && r.pending == c.pending
  {
    c.(filter := f, fetches := c.fetches + [f])
  }

  /** The debounced callback: non-empty text starts a new search on page 1,
      keeping only the old limit; empty text does nothing. */
  function Fire(c: Controller): (r: Controller)
    requires c.pending.Some?
    ensures r.pending.None? && r.searchValue == c.searchValue
    ensures c.pending.value.text != "" ==>
              && r.page == 1
              && r.filter == Filter(c.pending.value.text, c.filter.limit, "0", None, None)
              && r.fetches == c.fetches + [r.filter]
    ensures c.pending.value.text == "" ==> r == c.(pending := None)
  {
    var text := c.pending.value.text;
    if text != "" then
      SetFilter(c.(page := 1, pending := None), Filter(text, c.filter.limit, "0", None, None))
    else c.(pending := None)
  }

  /** Time reaching `time`: a timer due by then has fired. */
  function CatchUp(c: Controller, time: int): (r: Controller)
    ensures c.pending.Some? && c.pending.value.deadline <= time ==> r == Fire(c)
    ensures c.pending.None? || c.pending.value.deadline > time ==> r == c
    ensures r.pending.Some? ==> r.pending.value.deadline > time
  {
    if c.pending.Some? && c.pending.value.deadline <= time then Fire(c) else c
  }

  /** `setSearchValue(text)`: an unchanged value does not re-render; a new
      one cancels the pending timer and schedules another. */
  function ChangeText(c: Controller, time: int, text: string): (r: Controller)
    ensures r.searchValue == text
    ensures r.fetches == c.fetches && r.filter == c.filter && r.page == c.page
    ensures text != c.searchValue ==> r.pending == Some(Timer(time + DebounceMs, text))
    ensures text == c.searchValue ==> r.pending == c.pending
  {
    if text == c.searchValue then c
    else c.(searchValue := text, pending := Some(Timer(time + DebounceMs, text)))
  }

  /** `onSort`: the table's new sort goes into `sortBy` and `order`. */
  function OnSort(c: Controller, sort: Table.SortState): (r: Controller)
    ensures r.filter.sortBy == Some(sort.key) && r.filter.order == sort.direction
    ensures r.filter.q == c.filter.q && r.filter.limit == c.filter.limit && r.filter.skip == c.filter.skip
    ensures r.page == c.page && r.fetches == c.fetches + [r.filter]
  {
    SetFilter(c, c.filter.(order := sort.direction, sortBy := Some(sort.key)))
  }

  /** The `skip` text for a page: `String(page > 1 ? (page - 1) * Number(limit) : 0)`. */
  function SkipFor(page: int, limit: string): (s: string)
    ensures page <= 1 ==> s == "0"
    ensures page > 1 && !IsDigits(limit) ==> s == "NaN"
    ensures page > 1 && IsDigits(limit) ==> s == NumberToString(Finite((page - 1) * DigitsValue(limit)))
  {
    NumberToString(if page > 1 then Mul(Finite(page - 1), NumberOfString(limit)) else Finite(0))
  }

  /** `onPagination(page)`. */
  function OnPagination(c: Controller, page: int): (r: Controller)
    ensures r.page == page
    ensures r.filter == c.filter.(skip := SkipFor(page, c.filter.limit))
    ensures r.fetches == c.fetches + [r.filter]
    ensures r.searchValue == c.searchValue && r.pending == c.pending
  {
    SetFilter(c.(page := page), c.filter.(skip := SkipFor(page, c.filter.limit)))
  }

  /** `onRefresh`: the current filter is sent again, unchanged. */
  function OnRefresh(c: Controller): (r: Controller)
    ensures r.fetches == c.fetches + [c.filter]
    ensures r.filter == c.filter && r.page == c.page && r.pending == c.pending
  {
    c.(fetches := c.fetches + [c.filter])
  }

  datatype Action =
    | Typed(text: string)
    | SortClicked(sort: Table.SortState)
    | PageClicked(page: int)
    | Refreshed

  datatype Event = Event(time: int, action: Action)

  /** One event: first the timers due by its time fire, then the handler runs. */
  function Step(c: Controller, e: Event): (r: Controller)
    ensures c.fetches <= r.fetches && |r.fetches| <= |c.fetches| + 2
    ensures e.action.Typed? ==> r.searchValue == e.action.text
    ensures !e.action.Typed? ==> |r.fetches| > |c.fetches| && r.fetches[|r.fetches| - 1] == r.filter
  {
    var d := CatchUp(c, e.time);
    match e.action
    case Typed(text) => ChangeText(d, e.time, text)
    case SortClicked(sort) => OnSort(d, sort)
    case PageClicked(p) => OnPagination(d, p)
    case Refreshed => OnRefresh(d)
  }

  /** The fetch log only grows: a run never withdraws a request. */
  function Run(c: Controller, es: seq<Event>): (r: Controller)
    ensures c.fetches <= r.fetches && |r.fetches| <= |c.fetches| + 2 * |es|
    decreases |es|
  {
    if es == [] then c else Run(Step(c, es[0]), es[1..])
  }

  /** Enough time passing for the pending timer, if any, to fire. */
  function Flush(c: Controller): (r: Controller)
    ensures r.pending.None?
  {
    if c.pending.Some? then Fire(c) else c
  }

  // ---------------------------------------------------------------------
  // The page/offset invariant

  /** `skip` is the offset of the first row of `page`, in rows of `limit`. */
  predicate SkipMatchesPage(c: Controller) {
    && IsDigits(c.filter.limit)
    && c.page >= 1
    && c.filter.skip == NumberToString(Finite((c.page - 1) * DigitsValue(c.filter.limit)))
  }

  lemma InitialSkipMatchesPage(mountTime: int)
    ensures SkipMatchesPage(Initial(mountTime))
  {
    assert IsDigits("5") by { assert "5"[0] == '5'; }
    FirstPageSkip("5");
  }

  predicate ValidPage(e: Event) {
    e.action.PageClicked? ==> e.action.page >= 1
  }

  /** On page 1 the offset is "0", whatever the limit. */
  lemma FirstPageSkip(limit: string)
    requires IsDigits(limit)
    ensures NumberToString(Finite((1 - 1) * DigitsValue(limit))) == "0"
  {
    assert (1 - 1) * DigitsValue(limit) == 0;
    assert NatToDigits(0) == "0";
  }

  lemma FireKeepsSkip(c: Controller)
    requires SkipMatchesPage(c) && c.pending.Some?
    ensures SkipMatchesPage(Fire(c))
  {
    var r := Fire(c);
    if c.pending.value.text != "" {
      assert r.page == 1 && r.filter.skip == "0" && r.filter.limit == c.filter.limit;
      FirstPageSkip(c.filter.limit);
    } else {
      assert r.filter == c.filter && r.page == c.page;
    }
  }

  lemma PaginationKeepsSkip(c: Controller, page: int)
    requires SkipMatchesPage(c) && page >= 1
    ensures SkipMatchesPage(OnPagination(c, page))
  {
    var r := OnPagination(c, page);
    assert r.filter.limit == c.filter.limit;
    if page == 1 {
      FirstPageSkip(c.filter.limit);
    }
  }

  lemma CatchUpKeepsSkip(c: Controller, time: int)
    requires SkipMatchesPage(c)
    ensures SkipMatchesPage(CatchUp(c, time))
  {
    if c.pending.Some? && c.pending.value.deadline <= time {
      FireKeepsSkip(c);
    }
  }

  lemma StepKeepsSkip(c: Controller, e: Event)
    requires SkipMatchesPage(c) && ValidPage(e)
    ensures SkipMatchesPage(Step(c, e))
  {
    var d := CatchUp(c, e.time);
    CatchUpKeepsSkip(c, e.time);
    match e.action
    case PageClicked(p) => PaginationKeepsSkip(d, p);
    case SortClicked(sort) => assert OnSort(d, sort).filter.limit == d.filter.limit;
    case Typed(text) =>
    case Refreshed =>
  }

  /** Every sequence of sorts, page clicks to pages from 1 on, searches and
      refreshes keeps `skip == (page - 1) * limit`. */
  lemma {:induction false} RunKeepsSkip(c: Controller, es: seq<Event>)
    requires SkipMatchesPage(c)
    requires forall i :: 0 <= i < |es| ==> ValidPage(es[i])
    ensures SkipMatchesPage(Run(c, es))
    ensures SkipMatchesPage(Flush(Run(c, es)))
    decreases |es|
  {
    if es == [] {
      if c.pending.Some? { FireKeepsSkip(c); }
    } else {
      StepKeepsSkip(c, es[0]);
      RunKeepsSkip(Step(c, es[0]), es[1..]);
    }
  }

  // ---------------------------------------------------------------------
  // Debounce

  /** A burst of typing: each keystroke lands before the timer of the
      previous one is due, and each changes the text. */
  predicate Burst(c: Controller, es: seq<Event>) {
    && c.pending.Some?
    && (forall i :: 0 <= i < |es| ==> es[i].action.Typed?)
    && (|es| > 0 ==> es[0].time < c.pending.value.deadline && es[0].action.text != c.searchValue)
    && (forall i :: 0 < i < |es| ==> es[i].time < es[i - 1].time + DebounceMs)
    && (forall i :: 0 < i < |es| ==> es[i].action.text != es[i - 1].action.text)
  }

  /** During a burst nothing is fetched and only the last text is pending. */
  lemma {:induction false} BurstFetchesNothing(c: Controller, es: seq<Event>)
    requires Burst(c, es) && |es| > 0
    ensures var r := Run(c, es);
            && r.fetches == c.fetches && r.filter == c.filter && r.page == c.page
            && r.searchValue == es[|es| - 1].action.text
            && r.pending == Some(Timer(es[|es| - 1].time + DebounceMs, es[|es| - 1].action.text))
    decreases |es|
  {
    var d := Step(c, es[0]);
    assert d == c.(searchValue := es[0].action.text,
                   pending := Some(Timer(es[0].time + DebounceMs, es[0].action.text)));
    if |es| > 1 {
      var rest := es[1..];
      assert rest[0] == es[1];
      assert forall i :: 0 < i < |rest| ==> rest[i] == es[i + 1] && rest[i - 1] == es[i];
      assert Burst(d, rest);
      BurstFetchesNothing(d, rest);
      assert rest[|rest| - 1] == es[|es| - 1];
    } else {
      assert Run(d, es[1..]) == d;
    }
  }

  /** After a burst followed by a pause, exactly one search is sent: for
      the last text, on page 1 and with the old limit. */
  lemma BurstThenPauseFetchesOnce(c: Controller, es: seq<Event>)
    requires Burst(c, es) && |es| > 0
    requires es[|es| - 1].action.text != ""
    ensures var r := Flush(Run(c, es));
            && r.fetches == c.fetches + [Filter(es[|es| - 1].action.text, c.filter.limit, "0", None, None)]
            && r.page == 1
  {
    BurstFetchesNothing(c, es);
  }

  /** Typing "a", "ab", "abc" within 400 ms of each other sends one search,
      for "abc"; pausing after "ab" sends "ab" first. */
  lemma TypingScenarios()
    ensures Flush(Run(Initial(0), [Event(100, Typed("a")), Event(250, Typed("ab")), Event(500, Typed("abc"))])).fetches
            == [InitialFilter, Filter("abc", "5", "0", None, None)]
    ensures Flush(Run(Initial(0), [Event(100, Typed("a")), Event(250, Typed("ab")), Event(700, Typed("abc"))])).fetches
            == [InitialFilter, Filter("ab", "5", "0", None, None), Filter("abc", "5", "0", None, None)]
  {
    var c := Initial(0);
    var es := [Event(100, Typed("a")), Event(250, Typed("ab")), Event(500, Typed("abc"))];
    assert Burst(c, es);
    BurstThenPauseFetchesOnce(c, es);
    var c1 := Step(Step(c, Event(100, Typed("a"))), Event(250, Typed("ab")));
    assert c1.pending == Some(Timer(650, "ab"));
    var c2 := Step(c1, Event(700, Typed("abc")));
    assert c2.fetches == [InitialFilter, Filter("ab", "5", "0", None, None)];
    assert Run(c, [Event(100, Typed("a")), Event(250, Typed("ab")), Event(700, Typed("abc"))]) == c2;
  }

  /** A search drops the sort; sorting afterwards keeps the query. */
  lemma SearchDropsSort(c: Controller, time: int, sort: Table.SortState)
    requires c.pending.Some? && c.pending.value.text != "" && c.pending.value.deadline <= time
    ensures var r := Step(c, Event(time, Refreshed));
            r.filter.sortBy.None? && r.filter.order.None? && r.filter.q == c.pending.value.text
    ensures var r := Step(Step(c, Event(time, Refreshed)), Event(time, SortClicked(sort)));
            r.filter.q == c.pending.value.text && r.filter.sortBy == Some(sort.key)
  {
  }
}

=== FILE: product_slice.dfy ===
/** The cached product list and how each fulfilled product request patches
    it. The remote API does not keep writes, so an added or edited product
    is written into the cached page by the reducer itself. */
module ProductSlice {
  import opened Js

  /** A product: its identity and the rest of its fields. */
  datatype Product = Product(id: int, fields: map<string, JsValue>)

  datatype ProductsResponse = ProductsResponse(products: seq<Product>, total: int, skip: int, limit: int)

  datatype ProductState = ProductState(
    products: seq<Product>,
    productCategories: seq<JsValue>,
    limit: int,
    skip: int,
    total: int)

  datatype Action =
    | SearchFulfilled(response: ProductsResponse)
    | PostFulfilled(added: Product)
    | PutFulfilled(edited: Product)
    | CategoriesFulfilled(categories: seq<JsValue>)

  const InitialState := ProductState([], [], 0, 0, 0)

  /** `pop()` then `unshift(added)`: the new product goes to the front and
      the last cached one falls off, so a full page stays full. */
  function AddToFront(products: seq<Product>, added: Product): (r: seq<Product>)
    ensures |products| > 0 ==> |r| == |products|
    ensures |products| == 0 ==> r == [added]
    ensures r[0] == added
    ensures forall i :: 1 <= i < |r| ==> r[i] == products[i - 1]
  {
    var popped := if |products| > 0 then products[..|products| - 1] else [];
    [added] + popped
  }

  /** `products.map(p => p.id === edited.id ? edited : p)` */
  function ReplaceById(products: seq<Product>, edited: Product): (r: seq<Product>)
    ensures |r| == |products|
    ensures forall i :: 0 <= i < |r| ==>
              r[i] == (if products[i].id == edited.id then edited else products[i])
  {
    if products == [] then []
    else [if products[0].id == edited.id then edited else products[0]] + ReplaceById(products[1..], edited)
  }

  function Reduce(s: ProductState, a: Action): (r: ProductState)
    ensures !a.CategoriesFulfilled? ==> r.productCategories == s.productCategories
    ensures !a.SearchFulfilled? ==> r.limit == s.limit && r.skip == s.skip && r.total == s.total
    ensures a.CategoriesFulfilled? ==> r.products == s.products
    ensures a.PutFulfilled? || (a.PostFulfilled? && s.products != []) ==> |r.products| == |s.products|
  {
    match a
    case SearchFulfilled(p) => s.(products := p.products, skip := p.skip, limit := p.limit, total := p.total)
    case PostFulfilled(p) => s.(products := AddToFront(s.products, p))
    case PutFulfilled(p) => s.(products := ReplaceById(s.products, p))
    case CategoriesFulfilled(c) => s.(productCategories := c)
  }

  /** A search result replaces the page and its counters and nothing else. */
  lemma SearchReplacesPage(s: ProductState, p: ProductsResponse)
    ensures var r := Reduce(s, SearchFulfilled(p));
            && r.products == p.products && r.skip == p.skip && r.limit == p.limit && r.total == p.total
            && r.productCategories == s.productCategories
  {
  }

  /** An added product shows first, the rest shift down by one, the page
      keeps its length and the counters are untouched. */
  lemma AddKeepsCounters(s: ProductState, p: Product)
    ensures var r := Reduce(s, PostFulfilled(p));
            && r.total == s.total && r.skip == s.skip && r.limit == s.limit
            && r.productCategories == s.productCategories
            && r.products[0] == p
            && (|s.products| > 0 ==> r.products == [p] + s.products[..|s.products| - 1])
  {
  }

  /** An edit touches exactly the products with the edited id. */
  lemma EditReplacesMatching(s: ProductState, p: Product, i: int)
    requires 0 <= i < |s.products|
    ensures var r := Reduce(s, PutFulfilled(p)).products;
            && |r| == |s.products|
            && (s.products[i].id == p.id ==> r[i] == p)
            && (s.products[i].id != p.id ==> r[i] == s.products[i])
  {
  }

  /** Applying the same edit twice is the same as applying it once. */
  lemma {:induction false} EditIdempotent(products: seq<Product>, p: Product)
    ensures ReplaceById(ReplaceById(products, p), p) == ReplaceById(products, p)
  {
    if products != [] {
      EditIdempotent(products[1..], p);
    }
  }

  /** An edit of a product that is not on the page changes nothing. */
  lemma {:induction false} EditAbsentIsNoOp(products: seq<Product>, p: Product)
    requires forall i :: 0 <= i < |products| ==> products[i].id != p.id
    ensures ReplaceById(products, p) == products
  {
    if products != [] {
      EditAbsentIsNoOp(products[1..], p);
    }
  }

  /** After an edit the page holds the edited product wherever its id was,
      and no other product with that id. */
  lemma EditLeavesOnlyEditedVersion(products: seq<Product>, p: Product, q: Product)
    requires q in ReplaceById(products, p) && q.id == p.id
    ensures q == p
  {
  }

  /** The store starts with an empty page and zero counters, and a
      categories response replaces the category list and nothing else. */
  lemma CategoriesTouchOnlyCategories(s: ProductState, c: seq<JsValue>)
    ensures InitialState.products == [] && InitialState.productCategories == []
    ensures InitialState.limit == 0 && InitialState.skip == 0 && InitialState.total == 0
    ensures Reduce(s, CategoriesFulfilled(c)) == s.(productCategories := c)
  {
  }
}

=== FILE: storage.dfy ===
/** `localStorage` and `sessionStorage` as values passed in and returned.
    An entry written with `setItem(k, text)` holds `Str(text)`. An entry the
    table writes with `setItem(k, JSON.stringify(doc))` is kept as the
    document itself, so that `JSON.parse(getItem(k))` reads `doc` back; the
    JSON text in between is not modelled. */
module BrowserStorage {
  import opened Js

  type Storage = map<string, JsValue>

  function GetItem(st: Storage, key: string): (r: Option<JsValue>)
    ensures r.Some? <==> key in st
  {
    if key in st then Some(st[key]) else None
  }

  /** `getItem(key)` for an entry holding text: null when absent. */
  function GetText(st: Storage, key: string): (r: Option<string>)
    ensures r.Some? ==> key in st && st[key] == Str(r.value)
  {
    if key in st && st[key].Str? then Some(st[key].s) else None
  }

  function SetItem(st: Storage, key: string, v: JsValue): (r: Storage)
    ensures key in r && r[key] == v
    ensures forall k :: k != key ==> (k in r <==> k in st)
    ensures forall k :: k != key && k in st ==> r[k] == st[k]
  {
    st[key := v]
  }

  function RemoveItem(st: Storage, key: string): (r: Storage)
    ensures key !in r
    ensures forall k :: k != key ==> (k in r <==> k in st)
    ensures forall k :: k != key && k in st ==> r[k] == st[k]
  {
    st - {key}
  }

  /** `JSON.parse(getItem(key) || "{}")`: a missing entry reads as `{}`. */
  function ParseOrEmpty(st: Storage, key: string): (doc: JsValue)
    ensures key !in st ==> doc == Object(map[])
    ensures key in st ==> doc == st[key]
  {
    if key in st then st[key] else Object(map[])
  }

  /** `Object.keys(doc).length > 0` */
  predicate HasKeys(doc: JsValue) {
    doc.Object? && |doc.fields| > 0
  }
}

=== FILE: table.dfy ===
/** The generic data table: its sort state machine and the persisted sort,
    the column widths and the drag that resizes them, the row selection
    with its header flags, the footer's page arithmetic and the rows a page
    shows when the table sorts and pages by itself. */
module Table {
  import opened Js
  import opened BrowserStorage

  // =====================================================================
  // Sort state

  datatype Direction = Asc | Desc

  /** The sort of the table: the empty key with no direction when unsorted. */
  datatype SortState = SortState(key: string, direction: Option<Direction>)

  const InitialSort := SortState("", None)

  function DirectionName(d: Direction): string {
    match d
    case Asc => "asc"
    case Desc => "desc"
  }

  /** The direction a click on the current sort column moves to. */
  function NextDirection(d: Option<Direction>): Option<Direction> {
    match d
    case Some(Desc) => None
    case Some(Asc) => Some(Desc)
    case None => Some(Asc)
  }

  /** The sort after a click on the header of column `key`. */
  function NextSort(sort: SortState, key: string): (r: SortState)
    ensures sort.key != key ==> r == SortState(key, Some(Asc))
    ensures sort.key == key ==> r.direction == NextDirection(sort.direction)
    ensures r.direction.Some? ==> r.key == key
    ensures r.direction.None? ==> r.key == ""
  {
    if sort.key == key then
      var direction := NextDirection(sort.direction);
      SortState(if direction.Some? then key else "", direction)
    else
      SortState(key, Some(Asc))
  }

  /** The invariant of every sort the table can reach: unsorted exactly when
      the key is empty. */
  predicate SortWellFormed(sort: SortState) {
    sort.key == "" <==> sort.direction.None?
  }

  /** A click on a non-empty column key keeps the sort well formed. */
  lemma NextSortPreservesWellFormed(sort: SortState, key: string)
    requires SortWellFormed(sort) && key != ""
    ensures SortWellFormed(NextSort(sort, key))
  {
  }

  /** The sort after a run of header clicks. */
  function ClickAll(sort: SortState, keys: seq<string>): SortState
    decreases |keys|
  {
    if keys == [] then sort else ClickAll(NextSort(sort, keys[0]), keys[1..])
  }

  /** Every sort reached from the initial one by clicks on columns with
      non-empty keys is well formed. */
  lemma {:induction false} ReachableSortsWellFormed(sort: SortState, keys: seq<string>)
    requires SortWellFormed(sort)
    requires forall i :: 0 <= i < |keys| ==> keys[i] != ""
    ensures SortWellFormed(ClickAll(sort, keys))
    decreases |keys|
  {
    if keys != [] {
      NextSortPreservesWellFormed(sort, keys[0]);
      ReachableSortsWellFormed(NextSort(sort, keys[0]), keys[1..]);
    }
  }

  /** One column clicked three times from the initial sort goes ascending,
      descending and back to unsorted. */
  lemma ThreeClicksRestore(key: string)
    requires key != ""
    ensures NextSort(InitialSort, key) == SortState(key, Some(Asc))
    ensures NextSort(NextSort(InitialSort, key), key) == SortState(key, Some(Desc))
    ensures NextSort(NextSort(NextSort(InitialSort, key), key), key) == InitialSort
  {
  }

  /** Three clicks on the current sort column of any well-formed sort bring
      it back. */
  lemma {:induction false} SortCycleHasPeriodThree(sort: SortState)
    requires SortWellFormed(sort) && sort.key != ""
    ensures ClickAll(sort, [sort.key, sort.key, sort.key]) == sort
  {
    var k := sort.key;
    var s1 := NextSort(sort, k);
    var s2 := NextSort(s1, k);
    var s3 := NextSort(s2, k);
    assert [k, k, k][1..] == [k, k];
    assert [k, k][1..] == [k];
    assert ClickAll(sort, [k, k, k]) == ClickAll(s1, [k, k]);
    assert ClickAll(s1, [k, k]) == ClickAll(s2, [k]);
    assert ClickAll(s2, [k]) == ClickAll(s3, []);
    match sort.direction {
      case Some(Asc) =>
      case Some(Desc) =>
    }
  }

  // ---------------------------------------------------------------------
  // Persisted sort

  function SortStorageKey(id: string): string {
    "table-" + id + "-sort"
  }

  /** The document `JSON.stringify({key, direction})` for a directed sort. */
  function SortDoc(sort: SortState): JsValue
    requires sort.direction.Some?
  {
    Object(map["key" := Str(sort.key), "direction" := Str(DirectionName(sort.direction.value))])
  }

  /** The outcome of a header click: the new sort, the storage afterwards and
      the argument the `onSort` callback receives. */
  datatype SortClick = SortClick(sort: SortState, storage: Storage, emitted: SortState)

  /** `handleSort(key)` */
  function HandleSort(sort: SortState, key: string, id: string, storage: Storage): (r: SortClick)
    ensures r.sort == NextSort(sort, key) && r.emitted == r.sort
    ensures r.sort.direction.Some? ==>
              SortStorageKey(id) in r.storage && r.storage[SortStorageKey(id)] == SortDoc(r.sort)
    ensures r.sort.direction.None? ==> SortStorageKey(id) !in r.storage
    ensures forall k :: k != SortStorageKey(id) ==> (k in r.storage <==> k in storage)
    ensures forall k :: k != SortStorageKey(id) && k in storage ==> r.storage[k] == storage[k]
  {
    var next := NextSort(sort, key);
    var storage' :=
      if next.direction.Some? then SetItem(storage, SortStorageKey(id), SortDoc(next))
      else RemoveItem(storage, SortStorageKey(id));
    SortClick(next, storage', next)
  }

  /** `persistedSort as SortState`: the cast reads the two fields of the
      document; a field of another shape reads as the unsorted value. */
  function DecodeSort(doc: JsValue): (r: SortState)
    ensures r.direction == Some(Asc) <==> Member(doc, "direction") == Str("asc")
    ensures r.direction == Some(Desc) <==> Member(doc, "direction") == Str("desc")
    ensures Member(doc, "key").Str? ==> r.key == Member(doc, "key").s
    ensures !Member(doc, "key").Str? ==> r.key == ""
  {
    var key := Member(doc, "key");
    var dir := Member(doc, "direction");
    SortState(
      if key.Str? then key.s else "",
      if dir == Str("asc") then Some(Asc) else if dir == Str("desc") then Some(Desc) else None)
  }

  /** The mount effect: a persisted sort with any keys is adopted and handed
      to `onSort`; otherwise the table starts unsorted and emits nothing. */
  function MountSort(storage: Storage, id: string): (r: (SortState, Option<SortState>))
    ensures r.1.Some? ==> r.1.value == r.0
    ensures SortStorageKey(id) !in storage ==> r == (InitialSort, None)
    ensures var doc := ParseOrEmpty(storage, SortStorageKey(id));
            HasKeys(doc) ==> r.1.Some? && r.0 == DecodeSort(doc)
    ensures !HasKeys(ParseOrEmpty(storage, SortStorageKey(id))) ==> r == (InitialSort, None)
  {
    var doc := ParseOrEmpty(storage, SortStorageKey(id));
    if HasKeys(doc) then (DecodeSort(doc), Some(DecodeSort(doc))) else (InitialSort, None)
  }

  /** The document a click writes reads back as the sort it was written from. */
  lemma DecodeSortDoc(sort: SortState)
    requires sort.direction.Some?
    ensures DecodeSort(SortDoc(sort)) == sort
  {
    match sort.direction.value {
      case Asc =>
      case Desc =>
    }
  }

  /** A table mounted again with the same id, from the storage a click left
      behind, shows the sort that click produced. */
  lemma SortSurvivesRemount(sort: SortState, key: string, id: string, storage: Storage)
    ensures var c := HandleSort(sort, key, id, storage);
            MountSort(c.storage, id).0 == c.sort
  {
    var c := HandleSort(sort, key, id, storage);
    if c.sort.direction.Some? {
      var doc := SortDoc(c.sort);
      assert doc.fields.Keys == {"key", "direction"};
      assert HasKeys(doc);
      match c.sort.direction.value {
        case Asc =>
        case Desc =>
      }
    }
  }

  // =====================================================================
  // Column widths

  datatype Column = Column(key: string, title: string, minWidth: Option<int>, maxWidth: Option<int>)

  type Widths = map<string, int>

  const InitialWidthDefault := 120
  const DragMinDefault := 60
  const DragMaxDefault := 600

  function WidthsStorageKey(id: string): string {
    "table-" + id + "-widths"
  }

  predicate KeysDistinct(columns: seq<Column>) {
    forall i, j :: 0 <= i < j < |columns| ==> columns[i].key != columns[j].key
  }

  /** The keys of the given columns. */
  function ColumnKeys(columns: seq<Column>): set<string> {
    set i | 0 <= i < |columns| :: columns[i].key
  }

  lemma ColumnKeysSnoc(columns: seq<Column>)
    requires columns != []
    ensures ColumnKeys(columns) == ColumnKeys(columns[..|columns| - 1]) + {columns[|columns| - 1].key}
  {
    var init := columns[..|columns| - 1];
    forall k | k in ColumnKeys(columns) ensures k in ColumnKeys(init) + {columns[|columns| - 1].key} {
      var i :| 0 <= i < |columns| && columns[i].key == k;
      if i < |init| { assert init[i] == columns[i]; }
    }
    forall k | k in ColumnKeys(init) ensures k in ColumnKeys(columns) {
      var i :| 0 <= i < |init| && init[i].key == k;
      assert columns[i] == init[i];
    }
  }

  /** No later column has the key of column `i`. */
  predicate LastWithKey(columns: seq<Column>, i: int)
    requires 0 <= i < |columns|
  {
    forall j :: i < j < |columns| ==> columns[j].key != columns[i].key
  }

  /** `columns.forEach(col => initial[col.key] = col.minWidth ?? 120)`: one
      entry per column key. */
  function DefaultWidths(columns: seq<Column>): (w: Widths)
    ensures w.Keys == ColumnKeys(columns)
    decreases |columns|
  {
    if columns == [] then map[]
    else
      var last := columns[|columns| - 1];
      ColumnKeysSnoc(columns);
      DefaultWidths(columns[..|columns| - 1])[last.key := last.minWidth.GetOr(InitialWidthDefault)]
  }

  /** The last column with a key decides its default width. */
  lemma {:induction false} DefaultWidthOfLast(columns: seq<Column>, i: int)
    requires 0 <= i < |columns| && LastWithKey(columns, i)
    ensures columns[i].key in DefaultWidths(columns)
    ensures DefaultWidths(columns)[columns[i].key] == columns[i].minWidth.GetOr(InitialWidthDefault)
    decreases |columns|
  {
    var n := |columns|;
    if i < n - 1 {
      var init := columns[..n - 1];
      assert columns[n - 1].key != columns[i].key;
      assert init[i] == columns[i];
      assert LastWithKey(init, i) by {
        forall j | i < j < |init| ensures init[j].key != init[i].key {
          assert init[j] == columns[j];
        }
      }
      DefaultWidthOfLast(init, i);
    }
  }

  /** With distinct keys every column gets its own `minWidth ?? 120`. */
  lemma DefaultWidthsOfDistinct(columns: seq<Column>)
    requires KeysDistinct(columns)
    ensures forall i :: 0 <= i < |columns| ==>
              columns[i].key in DefaultWidths(columns)
              && DefaultWidths(columns)[columns[i].key] == columns[i].minWidth.GetOr(InitialWidthDefault)
  {
    forall i | 0 <= i < |columns|
      ensures columns[i].key in DefaultWidths(columns)
      ensures DefaultWidths(columns)[columns[i].key] == columns[i].minWidth.GetOr(InitialWidthDefault)
    {
      DefaultWidthOfLast(columns, i);
    }
  }

  /** The document `JSON.stringify(widths)`. */
  function WidthsDoc(w: Widths): (doc: JsValue)
    ensures doc.Object? && doc.fields.Keys == w.Keys
  {
    Object(map k | k in w :: Num(w[k]))
  }

  /** The numeric entries of a persisted widths document. */
  function DecodeWidths(doc: JsValue): (w: Widths)
    requires doc.Object?
    ensures w.Keys <= doc.fields.Keys
    ensures forall k :: k in w ==> doc.fields[k] == Num(w[k])
    ensures (forall k :: k in doc.fields ==> doc.fields[k].Num?) ==> w.Keys == doc.fields.Keys
  {
    map k | k in doc.fields && doc.fields[k].Num? :: doc.fields[k].n
  }

  /** The initial `widths` state: the persisted map when it has any entry,
      the column defaults otherwise. */
  function InitialWidths(storage: Storage, id: string, columns: seq<Column>): (w: Widths)
    ensures var doc := ParseOrEmpty(storage, WidthsStorageKey(id));
            HasKeys(doc) && (forall k :: k in doc.fields ==> doc.fields[k].Num?) ==>
              w.Keys == doc.fields.Keys && forall k :: k in w ==> doc.fields[k] == Num(w[k])
    ensures !HasKeys(ParseOrEmpty(storage, WidthsStorageKey(id))) ==> w.Keys == ColumnKeys(columns)
    ensures !HasKeys(ParseOrEmpty(storage, WidthsStorageKey(id))) && KeysDistinct(columns) ==>
              forall i :: 0 <= i < |columns| ==> w[columns[i].key] == columns[i].minWidth.GetOr(InitialWidthDefault)
  {
    var doc := ParseOrEmpty(storage, WidthsStorageKey(id));
    if HasKeys(doc) then DecodeWidths(doc)
    else if KeysDistinct(columns) then DefaultWidthsOfDistinct(columns); DefaultWidths(columns)
    else DefaultWidths(columns)
  }

  /** The first column with the given key. */
  function FindColumn(columns: seq<Column>, key: string): (r: Option<Column>)
    ensures r.Some? ==> r.value in columns && r.value.key == key
    ensures r.None? ==> forall i :: 0 <= i < |columns| ==> columns[i].key != key
  {
    if columns == [] then None
    else if columns[0].key == key then Some(columns[0])
    else FindColumn(columns[1..], key)
  }

  /** The drag bounds of a column: `minWidth ?? 60` and `maxWidth ?? 600`. */
  function DragBounds(columns: seq<Column>, key: string): (b: (int, int))
    ensures FindColumn(columns, key).None? ==> b == (DragMinDefault, DragMaxDefault)
  {
    match FindColumn(columns, key)
    case Some(c) => (c.minWidth.GetOr(DragMinDefault), c.maxWidth.GetOr(DragMaxDefault))
    case None => (DragMinDefault, DragMaxDefault)
  }

  /** `Math.min(max, Math.max(min, x))` */
  function Clamp(lo: int, hi: int, x: int): (r: int)
    ensures lo <= hi ==> lo <= r <= hi
    ensures lo <= x <= hi ==> r == x
    ensures lo <= hi && x < lo ==> r == lo
    ensures x > hi ==> r == hi
  {
    if x < lo then (if lo < hi then lo else hi) else if x < hi then x else hi
  }

  /** The width a drag starts from. A column the widths map lacks starts
      from its default initial width (see the findings of the model). */
  function StartWidth(widths: Widths, columns: seq<Column>, key: string): (w: int)
    ensures key in widths ==> w == widths[key]
  {
    if key in widths then widths[key]
    else match FindColumn(columns, key)
      case Some(c) => c.minWidth.GetOr(InitialWidthDefault)
      case None => InitialWidthDefault
  }

  datatype Layout = Layout(widths: Widths, storage: Storage)

  /** The width one pointer move sets: the start width moved by `delta`,
      clamped to the column's bounds. */
  function MoveWidth(columns: seq<Column>, key: string, startWidth: int, delta: int): (w: int)
    ensures var (lo, hi) := DragBounds(columns, key);
            && (lo <= hi ==> lo <= w <= hi)
            && (lo <= startWidth + delta <= hi ==> w == startWidth + delta)
            && (lo <= hi && startWidth + delta < lo ==> w == lo)
            && (startWidth + delta > hi ==> w == hi)
  {
    var (lo, hi) := DragBounds(columns, key);
    Clamp(lo, hi, startWidth + delta)
  }

  /** One pointer move of a drag on column `key`: only that column changes
      and the whole map is persisted at once. */
  function OnMove(prev: Widths, columns: seq<Column>, key: string, startWidth: int, delta: int,
                  id: string, storage: Storage): (r: Layout)
    ensures key in r.widths
    ensures var (lo, hi) := DragBounds(columns, key);
            lo <= hi ==> lo <= r.widths[key] <= hi
    ensures var (lo, hi) := DragBounds(columns, key);
            lo <= startWidth + delta <= hi ==> r.widths[key] == startWidth + delta
    ensures r.widths.Keys == prev.Keys + {key}
    ensures forall k :: k in prev && k != key ==> r.widths[k] == prev[k]
    ensures GetItem(r.storage, WidthsStorageKey(id)) == Some(WidthsDoc(r.widths))
    ensures forall k :: k != WidthsStorageKey(id) ==> (k in r.storage <==> k in storage)
    ensures forall k :: k != WidthsStorageKey(id) && k in storage ==> r.storage[k] == storage[k]
  {
    var widths := prev[key := MoveWidth(columns, key, startWidth, delta)];
    Layout(widths, SetItem(storage, WidthsStorageKey(id), WidthsDoc(widths)))
  }

  /** A whole drag gesture: the start width is read once when the pointer
      goes down and every move is measured from it. */
  function Drag(layout: Layout, columns: seq<Column>, key: string, startWidth: int,
                deltas: seq<int>, id: string): (r: Layout)
    ensures deltas == [] ==> r == layout
    decreases |deltas|
  {
    if deltas == [] then layout
    else Drag(OnMove(layout.widths, columns, key, startWidth, deltas[0], id, layout.storage),
              columns, key, startWidth, deltas[1..], id)
  }

  lemma MapOverwrite(m: Widths, k: string, a: int, b: int)
    ensures m[k := a][k := b] == m[k := b]
  {
  }

  /** Since every move is measured from the same start, the last move alone
      decides the width; the other columns keep theirs and storage holds the
      final map. */
  lemma {:induction false} DragLastMoveWins(layout: Layout, columns: seq<Column>, key: string, startWidth: int,
                                            deltas: seq<int>, id: string)
    requires deltas != []
    ensures var r := Drag(layout, columns, key, startWidth, deltas, id);
            && r.widths == layout.widths[key := MoveWidth(columns, key, startWidth, deltas[|deltas| - 1])]
            && GetItem(r.storage, WidthsStorageKey(id)) == Some(WidthsDoc(r.widths))
    decreases |deltas|
  {
    var next := OnMove(layout.widths, columns, key, startWidth, deltas[0], id, layout.storage);
    assert Drag(layout, columns, key, startWidth, deltas, id) == Drag(next, columns, key, startWidth, deltas[1..], id);
    if |deltas| > 1 {
      DragLastMoveWins(next, columns, key, startWidth, deltas[1..], id);
      assert deltas[1..][|deltas| - 2] == deltas[|deltas| - 1];
      MapOverwrite(layout.widths, key, MoveWidth(columns, key, startWidth, deltas[0]),
                   MoveWidth(columns, key, startWidth, deltas[|deltas| - 1]));
    }
  }

  /** The document written by a move reads back as the widths it was
      written from. */
  lemma WidthsDocRoundTrip(w: Widths)
    ensures DecodeWidths(WidthsDoc(w)) == w
  {
  }

  /** A table mounted again with the same id, from the storage a drag left
      behind, starts with exactly the widths the drag produced. */
  lemma WidthsSurviveRemount(layout: Layout, columns: seq<Column>, key: string, startWidth: int,
                             deltas: seq<int>, id: string)
    requires |deltas| > 0
    ensures var r := Drag(layout, columns, key, startWidth, deltas, id);
            InitialWidths(r.storage, id, columns) == r.widths
  {
    var r := Drag(layout, columns, key, startWidth, deltas, id);
    DragLastMoveWins(layout, columns, key, startWidth, deltas, id);
    var doc := WidthsDoc(r.widths);
    assert key in doc.fields;
    WidthsDocRoundTrip(r.widths);
  }

  // ---------------------------------------------------------------------
  // The drag start as written

  /** `startWidth = widths[key]` as the source reads it: a key missing from
      the map gives undefined, which the arithmetic turns into NaN. */
  function StartWidthAsWritten(widths: Widths, key: string): Number {
    if key in widths then Finite(widths[key]) else NaN
  }

  /** `Math.min(max, Math.max(min, startWidth + delta))` over JavaScript
      numbers: NaN propagates through both. */
  function NextWidthAsWritten(columns: seq<Column>, key: string, startWidth: Number, delta: int): (r: Number)
    ensures startWidth.NaN? ==> r.NaN?
  {
    var (lo, hi) := DragBounds(columns, key);
    match startWidth
    case NaN => NaN
    case Finite(w) => Finite(Clamp(lo, hi, w + delta))
  }

  const FindingColumns := [
    Column("title", "Наименование", Some(200), None),
    Column("price", "Цена", Some(130), None)]

  /** The discrepancy: a persisted widths map written before the `price`
      column existed is adopted verbatim, and dragging `price` then yields
      NaN instead of a width between 130 and 600. */
  lemma DragOfUnpersistedColumnIsNaN()
    ensures var storage := map[WidthsStorageKey("productsTable") := Object(map["title" := Num(150)])];
            var widths := InitialWidths(storage, "productsTable", FindingColumns);
            && "price" !in widths
            && NextWidthAsWritten(FindingColumns, "price", StartWidthAsWritten(widths, "price"), 10).NaN?
  {
    var storage := map[WidthsStorageKey("productsTable") := Object(map["title" := Num(150)])];
    var doc := ParseOrEmpty(storage, WidthsStorageKey("productsTable"));
    assert doc.fields.Keys == {"title"};
    assert HasKeys(doc);
  }

  /** `widths[key]` as the arithmetic `startWidth + delta` sees it when the
      widths state is an adopted persisted document: a missing entry is
      undefined and gives NaN, and a `null` entry, which is what
      `JSON.stringify` writes for a NaN width, counts as 0. */
  function PersistedEntryStart(doc: JsValue, key: string): (r: Number)
    requires doc.Object?
    requires key in doc.fields ==> doc.fields[key].Num? || doc.fields[key].Null?
    ensures r.NaN? <==> key !in doc.fields
    ensures key in doc.fields && doc.fields[key].Num? ==> r == Finite(doc.fields[key].n)
  {
    if key !in doc.fields then NaN
    else match doc.fields[key]
      case Num(n) => Finite(n)
      case _ => Finite(0)
  }

  /** After a reload the NaN of the first drag has been persisted as `null`.
      The model's decoded widths leave that entry out, while the source
      adopts it, and a drag by +10 then computes `null + 10 = 10` and snaps
      to the column's minimum. */
  lemma PersistedNullSnapsToMin()
    ensures var doc := Object(map["title" := Num(150), "price" := Null]);
            && DecodeWidths(doc) == map["title" := 150]
            && NextWidthAsWritten(FindingColumns, "price", PersistedEntryStart(doc, "price"), 10) == Finite(130)
  {
    var doc := Object(map["title" := Num(150), "price" := Null]);
    assert doc.fields["price"] == Null;
    assert DecodeWidths(doc).Keys == {"title"};
  }

  /** With the corrected start width the same drag stays within the column's
      bounds, whatever the widths map holds. */
  lemma CorrectedDragStaysInBounds(widths: Widths, columns: seq<Column>, key: string, delta: int,
                                   id: string, storage: Storage)
    requires DragBounds(columns, key).0 <= DragBounds(columns, key).1
    ensures var r := OnMove(widths, columns, key, StartWidth(widths, columns, key), delta, id, storage);
            DragBounds(columns, key).0 <= r.widths[key] <= DragBounds(columns, key).1
  {
  }

  // =====================================================================
  // Row selection

  /** A data row: its id and its fields. */
  datatype Row = Row(id: int, cells: map<string, JsValue>)

  /** The selected ids and the two header flags the selection effect derives. */
  datatype Selection = Selection(selected: set<int>, selectAll: bool, indeterminate: bool)

  function RowIds(data: seq<Row>): set<int> {
    set i | 0 <= i < |data| :: data[i].id
  }

  predicate IdsDistinct(data: seq<Row>) {
    forall i, j :: 0 <= i < j < |data| ==> data[i].id != data[j].id
  }

  /** The effect on `[selectedRows, data.length]`: all selected when the
      count equals the row count, indeterminate strictly in between. */
  function WithFlags(selected: set<int>, rowCount: nat): (r: Selection)
    ensures r.selected == selected
    ensures !(r.selectAll && r.indeterminate)
    ensures selected == {} ==> !r.indeterminate && (r.selectAll <==> rowCount == 0)
    ensures r.indeterminate ==> 0 < |selected| < rowCount
  {
    Selection(selected, |selected| == rowCount, 0 < |selected| < rowCount)
  }

  /** `handleSelectAll(checked)` followed by the flag effect. */
  function SelectAll(data: seq<Row>, checked: bool): (r: Selection)
    ensures checked ==> r.selected == RowIds(data)
    ensures !checked ==> r.selected == {} && !r.indeterminate && (r.selectAll <==> data == [])
  {
    WithFlags(if checked then RowIds(data) else {}, |data|)
  }

  /** `handleRowSelect(rowId, checked)` followed by the flag effect. */
  function SelectRow(s: Selection, data: seq<Row>, rowId: int, checked: bool): (r: Selection)
    ensures rowId in r.selected <==> checked
    ensures r.selected - {rowId} == s.selected - {rowId}
  {
    WithFlags(if checked then s.selected + {rowId} else s.selected - {rowId}, |data|)
  }

  /** Rows with distinct ids have as many ids as rows. */
  lemma {:induction false} RowIdsCount(data: seq<Row>)
    requires IdsDistinct(data)
    ensures |RowIds(data)| == |data|
    decreases |data|
  {
    if data != [] {
      var rest := data[1..];
      RowIdsCount(rest);
      assert RowIds(data) == RowIds(rest) + {data[0].id} by {
        forall x | x in RowIds(data) ensures x in RowIds(rest) + {data[0].id} {
          var i :| 0 <= i < |data| && data[i].id == x;
          if i > 0 { assert rest[i - 1].id == x; }
        }
        forall x | x in RowIds(rest) ensures x in RowIds(data) {
          var i :| 0 <= i < |rest| && rest[i].id == x;
          assert data[i + 1].id == x;
        }
      }
      forall i | 0 <= i < |rest| ensures rest[i].id != data[0].id {
        assert rest[i] == data[i + 1];
      }
    }
  }

  /** When the ids are distinct and only shown rows are selected, the header
      box is checked exactly when every row is selected, and indeterminate
      exactly when some but not all are. */
  lemma FlagsMatchRows(selected: set<int>, data: seq<Row>)
    requires IdsDistinct(data) && selected <= RowIds(data)
    ensures WithFlags(selected, |data|).selectAll <==> selected == RowIds(data)
    ensures WithFlags(selected, |data|).indeterminate <==> selected != {} && selected != RowIds(data)
  {
    RowIdsCount(data);
    SubsetCardinality(selected, RowIds(data));
    if selected != RowIds(data) {
      assert RowIds(data) - selected != {};
    }
  }

  /** A subset's size and the size of what it leaves out add up to the
      superset's. */
  lemma SubsetCardinality(a: set<int>, b: set<int>)
    requires a <= b
    ensures |b| == |a| + |b - a|
    ensures |a| == |b| ==> a == b
  {
    assert b == a + (b - a);
    if |a| == |b| {
      assert b - a == {};
    }
  }

  /** Selecting every row and then clearing one of at least two rows leaves
      all but that row selected, the header box unchecked and indeterminate. */
  lemma SelectAllThenDeselectOne(data: seq<Row>, rowId: int)
    requires IdsDistinct(data) && |data| >= 2 && rowId in RowIds(data)
    ensures var s := SelectRow(SelectAll(data, true), data, rowId, false);
            s.selected == RowIds(data) - {rowId} && |s.selected| == |data| - 1
            && !s.selectAll && s.indeterminate
  {
    RowIdsCount(data);
    var rest := RowIds(data) - {rowId};
    assert RowIds(data) == rest + {rowId};
  }

  // ---------------------------------------------------------------------
  // A new page of rows

  /** As written: `selectedRows` survives a change of `data`, and the flag
      effect re-runs with the new row count only. */
  function OnDataChangeAsWritten(s: Selection, data: seq<Row>): (r: Selection)
    ensures r.selected == s.selected
    ensures r.selectAll <==> |s.selected| == |data|
  {
    WithFlags(s.selected, |data|)
  }

  /** The discrepancy: with every row of one page selected, a next page of
      as many other rows shows the header box checked although none of its
      rows is selected. */
  lemma CarriedSelectionChecksHeader(page1: seq<Row>, page2: seq<Row>)
    requires IdsDistinct(page1) && IdsDistinct(page2) && |page1| == |page2| >= 1
    requires RowIds(page1) !! RowIds(page2)
    ensures var r := OnDataChangeAsWritten(SelectAll(page1, true), page2);
            r.selectAll && r.selected * RowIds(page2) == {}
  {
    RowIdsCount(page1);
  }

  /** Corrected: only the selected ids that are still shown stay selected. */
  function OnDataChange(s: Selection, data: seq<Row>): (r: Selection)
    ensures r.selected <= RowIds(data)
    ensures forall id :: id in RowIds(data) ==> (id in r.selected <==> id in s.selected)
  {
    WithFlags(s.selected * RowIds(data), |data|)
  }

  /** With the corrected update the header box is checked exactly when every
      shown row is selected, and indeterminate exactly when some but not all
      of them are. */
  lemma CorrectedFlagsFollowShownRows(s: Selection, data: seq<Row>)
    requires IdsDistinct(data)
    ensures OnDataChange(s, data).selectAll <==> RowIds(data) <= s.selected
    ensures OnDataChange(s, data).indeterminate <==>
              s.selected * RowIds(data) != {} && !(RowIds(data) <= s.selected)
  {
    var kept := s.selected * RowIds(data);
    FlagsMatchRows(kept, data);
    assert kept == RowIds(data) <==> RowIds(data) <= s.selected;
  }

  // =====================================================================
  // Footer arithmetic

  /** `Math.ceil(totalCount / rowsCount)` */
  function TotalPages(total: int, rows: int): int
    requires rows > 0
  {
    -((-total) / rows)
  }

  /** `ceil(total / rows)` is the least page count whose pages hold `total` rows. */
  lemma TotalPagesIsCeiling(total: int, rows: int)
    requires rows > 0
    ensures var n := TotalPages(total, rows); (n - 1) * rows < total <= n * rows
  {
  }

  /** The first row number the footer shows. */
  function FooterStart(page: int, rows: int): (n: int)
    ensures page >= 1 && rows >= 0 ==> n >= 1
  {
    (page - 1) * rows + 1
  }

  /** The last row number the footer shows. */
  function FooterEnd(page: int, rows: int, total: int): (n: int)
    ensures n <= total && n <= page * rows
    ensures n == total || n == page * rows
  {
    if page * rows < total then page * rows else total
  }

  /** On any existing page the footer's range is non-empty, inside the
      total, and no longer than a page. */
  lemma FooterBounds(total: int, rows: int, page: int)
    requires rows >= 1 && 1 <= page <= TotalPages(total, rows)
    ensures 1 <= FooterStart(page, rows) <= FooterEnd(page, rows, total) <= total
    ensures FooterEnd(page, rows, total) - FooterStart(page, rows) + 1 <= rows
  {
    var n := TotalPages(total, rows);
    TotalPagesIsCeiling(total, rows);
    assert (page - 1) * rows <= (n - 1) * rows by {
      MulMonotone(page - 1, n - 1, rows);
    }
    assert 0 <= (page - 1) * rows by {
      MulMonotone(0, page - 1, rows);
    }
    assert page * rows == (page - 1) * rows + rows;
  }

  /** Consecutive pages tile the rows: the next page starts right after the
      last row this page shows. */
  lemma FooterPagesTile(total: int, rows: int, page: int)
    requires rows >= 1 && page >= 1 && page * rows < total
    ensures FooterStart(page + 1, rows) == FooterEnd(page, rows, total) + 1
  {
    assert (page + 1 - 1) * rows == page * rows;
  }

  lemma MulMonotone(a: int, b: int, c: int)
    requires a <= b && c >= 0
    ensures a * c <= b * c
  {
  }

  // =====================================================================
  // Rows shown on a page

  /** `String(row[key]).toLowerCase()` */
  function SortText(row: Row, key: string): string {
    ToLower(ToString(if key in row.cells then row.cells[key] else Undefined))
  }

  /** The comparator of the client-side sort returns a negative value:
      ascending by text for "asc", descending for any other direction. */
  predicate Before(a: Row, b: Row, key: string, asc: bool) {
    if asc then StrLess(SortText(a, key), SortText(b, key)) else StrLess(SortText(b, key), SortText(a, key))
  }

  lemma BeforeAsymmetric(a: Row, b: Row, key: string, asc: bool)
    ensures !(Before(a, b, key, asc) && Before(b, a, key, asc))
  {
    StrLessAsymmetric(SortText(a, key), SortText(b, key));
  }

  /** No row is out of order with its successor. */
  predicate Ordered(rows: seq<Row>, key: string, asc: bool) {
    forall i :: 0 < i < |rows| ==> !Before(rows[i], rows[i - 1], key, asc)
  }

  /** Places `x` in front of the first row that does not sort before it. */
  function Insert(x: Row, rows: seq<Row>, key: string, asc: bool): (r: seq<Row>)
    ensures multiset(r) == multiset(rows) + multiset{x}
    ensures rows == [] ==> r == [x]
    ensures rows != [] ==> r[0] == x || r[0] == rows[0]
    decreases |rows|
  {
    if rows == [] || !Before(rows[0], x, key, asc) then
      [x] + rows
    else
      assert rows == [rows[0]] + rows[1..];
      [rows[0]] + Insert(x, rows[1..], key, asc)
  }

  /** Inserting into ordered rows keeps them ordered. */
  lemma {:induction false} InsertOrdered(x: Row, rows: seq<Row>, key: string, asc: bool)
    requires Ordered(rows, key, asc)
    ensures Ordered(Insert(x, rows, key, asc), key, asc)
    decreases |rows|
  {
    if rows != [] && Before(rows[0], x, key, asc) {
      var tail := rows[1..];
      assert Ordered(tail, key, asc) by {
        forall i | 0 < i < |tail| ensures !Before(tail[i], tail[i - 1], key, asc) {
          assert tail[i] == rows[i + 1] && tail[i - 1] == rows[i];
        }
      }
      InsertOrdered(x, tail, key, asc);
      var rest := Insert(x, tail, key, asc);
      var r := Insert(x, rows, key, asc);
      assert r == [rows[0]] + rest;
      BeforeAsymmetric(rows[0], x, key, asc);
      assert !Before(rest[0], rows[0], key, asc) by {
        if tail != [] && rest[0] == tail[0] {
          assert tail[0] == rows[1];
        }
      }
      forall i | 0 < i < |r| ensures !Before(r[i], r[i - 1], key, asc) {
        if i > 1 {
          assert r[i] == rest[i - 1] && r[i - 1] == rest[i - 2];
        }
      }
    }
  }

  /** The client-side sort: a permutation of the rows in comparator order. */
  function SortRows(rows: seq<Row>, key: string, asc: bool): (r: seq<Row>)
    ensures multiset(r) == multiset(rows)
    ensures |r| == |rows|
    ensures Ordered(r, key, asc)
    decreases |rows|
  {
    if rows == [] then []
    else
      assert rows == [rows[0]] + rows[1..];
      var sortedTail := SortRows(rows[1..], key, asc);
      InsertOrdered(rows[0], sortedTail, key, asc);
      Insert(rows[0], sortedTail, key, asc)
  }

  /** `sortedData`: the rows as given when the parent sorts, else the page
      window of the rows, sorted first when a sort key is set. */
  function SortedData(data: seq<Row>, sort: SortState, hasOnSort: bool, page: int, rows: int): (r: seq<Row>)
    ensures hasOnSort ==> r == data
    ensures !hasOnSort && rows >= 0 ==> |r| <= rows
    ensures |r| <= |data|
  {
    if hasOnSort then data
    else if sort.key == "" then Slice(data, (page - 1) * rows, (page - 1) * rows + rows)
    else Slice(SortRows(data, sort.key, sort.direction == Some(Asc)), (page - 1) * rows, page * rows)
  }

  /** The rows the body shows: with the add row open, the first sorted row
      makes way for it and the page is capped at `rowsCount - 1` rows. */
  function VisibleRows(data: seq<Row>, sort: SortState, hasOnSort: bool, page: int, rows: int,
                       showAddRow: bool): (r: seq<Row>)
    ensures !showAddRow ==> r == SortedData(data, sort, hasOnSort, page, rows)
    ensures hasOnSort && !showAddRow ==> r == data
    ensures !hasOnSort && rows >= 0 ==> |r| <= rows
    ensures showAddRow && rows >= 1 ==> |r| <= rows - 1
    ensures var sorted := SortedData(data, sort, hasOnSort, page, rows);
            showAddRow && rows >= 1 && |sorted| >= 1 ==>
              r == sorted[1..if rows < |sorted| then rows else |sorted|]
    ensures hasOnSort && showAddRow && rows >= 1 && |data| >= 1 ==>
              r == data[1..if rows < |data| then rows else |data|]
  {
    var sorted := SortedData(data, sort, hasOnSort, page, rows);
    if showAddRow then Slice(sorted, 1, rows) else sorted
  }

  /** Unsorted and without a parent sort, a page that starts inside the
      data is the window of rows from `(page - 1) * rowsCount` up to
      `page * rowsCount`, cut short at the end of the data. */
  lemma UnsortedPageIsWindow(data: seq<Row>, page: int, rows: int)
    requires 0 <= (page - 1) * rows <= |data| && rows >= 0
    ensures VisibleRows(data, InitialSort, false, page, rows, false)
            == data[(page - 1) * rows..if page * rows < |data| then page * rows else |data|]
  {
    var b := (page - 1) * rows;
    assert b + rows == page * rows;
  }

  /** With a sort key and no parent sort, a page that starts inside the data
      is the same window taken from the sorted rows. */
  lemma SortedPageIsWindow(data: seq<Row>, sort: SortState, page: int, rows: int)
    requires sort.key != "" && rows >= 0 && 0 <= (page - 1) * rows <= |data|
    ensures SortedData(data, sort, false, page, rows)
            == SortRows(data, sort.key, sort.direction == Some(Asc))
                 [(page - 1) * rows..if page * rows < |data| then page * rows else |data|]
  {
    var b := (page - 1) * rows;
    assert b + rows == page * rows;
  }

  lemma SliceWithin<T>(s: seq<T>, begin: int, end: int)
    ensures multiset(Slice(s, begin, end)) <= multiset(s)
  {
    var b := SliceIndex(begin, |s|);
    var e := SliceIndex(end, |s|);
    if b < e {
      assert s == s[..b] + s[b..e] + s[e..];
    }
  }

  /** Every row a page shows is a row of the data, shown at most as often
      as it occurs there. */
  lemma VisibleRowsFromData(data: seq<Row>, sort: SortState, hasOnSort: bool, page: int, rows: int,
                            showAddRow: bool)
    ensures multiset(VisibleRows(data, sort, hasOnSort, page, rows, showAddRow)) <= multiset(data)
  {
    var sorted := SortedData(data, sort, hasOnSort, page, rows);
    if !hasOnSort {
      if sort.key == "" {
        SliceWithin(data, (page - 1) * rows, (page - 1) * rows + rows);
      } else {
        SliceWithin(SortRows(data, sort.key, sort.direction == Some(Asc)), (page - 1) * rows, page * rows);
      }
    }
    assert multiset(sorted) <= multiset(data);
    if showAddRow {
      SliceWithin(sorted, 1, rows);
    }
  }

  /** Any slice of ordered rows is ordered. */
  lemma SliceOfOrdered(all: seq<Row>, begin: int, end: int, key: string, asc: bool)
    requires Ordered(all, key, asc)
    ensures Ordered(Slice(all, begin, end), key, asc)
  {
    var r := Slice(all, begin, end);
    var b := SliceIndex(begin, |all|);
    var e := SliceIndex(end, |all|);
    if b < e {
      assert r == all[b..e];
      forall i | 0 < i < |r| ensures !Before(r[i], r[i - 1], key, asc) {
        assert r[i] == all[b + i] && r[i - 1] == all[b + i - 1];
      }
    }
  }

  /** With a sort key and no parent sort, the page is in comparator order. */
  lemma SortedPageOrdered(data: seq<Row>, sort: SortState, page: int, rows: int)
    requires sort.key != ""
    ensures Ordered(SortedData(data, sort, false, page, rows), sort.key, sort.direction == Some(Asc))
  {
    var asc := sort.direction == Some(Asc);
    SliceOfOrdered(SortRows(data, sort.key, asc), (page - 1) * rows, page * rows, sort.key, asc);
  }
}

=== FILE: user_slice.dfy ===
/** The session store: the signed-in user and the two tokens, and how each
    fulfilled auth request and the log-out action changes them. */
module UserSlice {
  import opened Js
  import opened BrowserStorage

  const RefreshTokenKey := "refreshToken"

  /** A user profile as the API returns it. The token fields are absent
      (None) in a profile fetched from `/auth/me`. */
  datatype User = User(
    profile: map<string, JsValue>,
    accessToken: Option<string>,
    refreshToken: Option<string>)

  /** The slice state. None stands for both null and undefined. */
  datatype AuthState = AuthState(
    user: Option<User>,
    accessToken: Option<string>,
    refreshToken: Option<string>)

  /** The new pair of tokens a refresh returns. */
  datatype Tokens = Tokens(accessToken: Option<string>, refreshToken: Option<string>)

  datatype Action =
    | AuthUserFulfilled(payload: User)
    | RefreshSessionFulfilled(tokens: Tokens)
    | GetUserFulfilled(payload: User)

  /** `getItem(key) || fallback`: an empty stored string falls through. */
  function TruthyText(st: Storage, key: string): (r: Option<string>)
    ensures r.Some? ==> r.value != "" && GetText(st, key) == r
    ensures r.None? ==> GetText(st, key).None? || GetText(st, key) == Some("")
  {
    match GetText(st, key)
    case Some(t) => if t != "" then Some(t) else None
    case None => None
  }

  /** The state the store starts in: no user, no access token, and the
      refresh token remembered in `localStorage`, else in `sessionStorage`. */
  function InitialState(local: Storage, session: Storage): (s: AuthState)
    ensures s.user.None? && s.accessToken.None?
    ensures TruthyText(local, RefreshTokenKey).Some? ==> s.refreshToken == TruthyText(local, RefreshTokenKey)
    ensures TruthyText(local, RefreshTokenKey).None? ==> s.refreshToken == TruthyText(session, RefreshTokenKey)
    ensures s.refreshToken.Some? ==> s.refreshToken.value != ""
  {
    var fromLocal := TruthyText(local, RefreshTokenKey);
    AuthState(None, None, if fromLocal.Some? then fromLocal else TruthyText(session, RefreshTokenKey))
  }

  /** `logOut`: forget the user and both tokens, and drop the durable copy
      of the refresh token. The session-scoped copy is left in place. */
  function LogOut(s: AuthState, local: Storage): (r: (AuthState, Storage))
    ensures r.0 == AuthState(None, None, None)
    ensures RefreshTokenKey !in r.1
    ensures forall k :: k != RefreshTokenKey ==> (k in r.1 <==> k in local)
    ensures forall k :: k != RefreshTokenKey && k in local ==> r.1[k] == local[k]
  {
    (AuthState(None, None, None), RemoveItem(local, RefreshTokenKey))
  }

  /** The reducer for the fulfilled auth requests. */
  function Reduce(s: AuthState, a: Action): (r: AuthState)
    ensures s.user.Some? ==> r.user.Some?
    ensures !a.RefreshSessionFulfilled? ==> TokensInSync(r)
    ensures a.GetUserFulfilled? ==> r.accessToken == s.accessToken && r.refreshToken == s.refreshToken
  {
    match a
    case AuthUserFulfilled(u) => AuthState(Some(u), u.accessToken, u.refreshToken)
    case RefreshSessionFulfilled(t) => s.(accessToken := t.accessToken, refreshToken := t.refreshToken)
    case GetUserFulfilled(u) =>
      s.(user := Some(u.(accessToken := s.accessToken, refreshToken := s.refreshToken)))
  }

  /** The user's copy of the tokens agrees with the store's. */
  predicate TokensInSync(s: AuthState) {
    s.user.Some? ==>
      s.user.value.accessToken == s.accessToken && s.user.value.refreshToken == s.refreshToken
  }

  /** A login installs the returned user and takes both tokens from it. */
  lemma AuthUserInstallsUser(s: AuthState, u: User)
    ensures Reduce(s, AuthUserFulfilled(u)).user == Some(u)
    ensures Reduce(s, AuthUserFulfilled(u)).accessToken == u.accessToken
    ensures Reduce(s, AuthUserFulfilled(u)).refreshToken == u.refreshToken
    ensures TokensInSync(Reduce(s, AuthUserFulfilled(u)))
  {
  }

  /** A refresh replaces both tokens and nothing else. */
  lemma RefreshKeepsUser(s: AuthState, t: Tokens)
    ensures Reduce(s, RefreshSessionFulfilled(t)).user == s.user
    ensures Reduce(s, RefreshSessionFulfilled(t)).accessToken == t.accessToken
    ensures Reduce(s, RefreshSessionFulfilled(t)).refreshToken == t.refreshToken
  {
  }

  /** Fetching the profile replaces the user, keeps the profile fields of the
      payload, overwrites its token fields with the store's, and leaves the
      store's tokens alone; afterwards the two copies agree. */
  lemma GetUserKeepsTokens(s: AuthState, u: User)
    ensures Reduce(s, GetUserFulfilled(u)).accessToken == s.accessToken
    ensures Reduce(s, GetUserFulfilled(u)).refreshToken == s.refreshToken
    ensures Reduce(s, GetUserFulfilled(u)).user.Some?
    ensures Reduce(s, GetUserFulfilled(u)).user.value.profile == u.profile
    ensures TokensInSync(Reduce(s, GetUserFulfilled(u)))
  {
  }

  /** A refresh while a user is signed in leaves the user's copy of the
      tokens stale until the profile is fetched again. */
  lemma RefreshDesynchronises(s: AuthState, t: Tokens)
    requires s.user.Some? && TokensInSync(s) && t.accessToken != s.accessToken
    ensures !TokensInSync(Reduce(s, RefreshSessionFulfilled(t)))
    ensures TokensInSync(Reduce(Reduce(s, RefreshSessionFulfilled(t)), GetUserFulfilled(s.user.value)))
  {
  }

  /** Restoring a session after a log-out finds the token only where the
      log-out did not remove it. */
  lemma RestoreAfterLogOut(s: AuthState, local: Storage, session: Storage)
    ensures InitialState(LogOut(s, local).1, session).refreshToken == TruthyText(session, RefreshTokenKey)
  {
    assert GetText(LogOut(s, local).1, RefreshTokenKey).None?;
  }
}

=== FILE: utils.dfy ===
/** The error type guards of the shared helper file: they decide, from the
    shape of a caught value alone, which kind of failure it is. */
module Utils {
  import opened Js

  /** A serialized framework error: a non-null object carrying at least one
      of `message`, `name`, `code` or `stack`. */
  predicate IsSerializedError(error: JsValue)
    ensures IsSerializedError(error) ==> error.Object?
  {
    && TypeOf(error) == "object"
    && error != Null
    && (HasKey(error, "message") || HasKey(error, "name")
        || HasKey(error, "code") || HasKey(error, "stack"))
  }

  /** A failed HTTP query: a non-null object carrying a `status`. The loose
      `!= null` of the source also rules out undefined, which `typeof`
      already excludes. */
  predicate IsFetchBaseQueryError(error: JsValue)
    ensures IsFetchBaseQueryError(error) ==> error.Object?
  {
    && TypeOf(error) == "object"
    && error != Null
    && error != Undefined
    && HasKey(error, "status")
  }

  /** An object whose `message` is a string. */
  predicate IsErrorWithMessage(error: JsValue)
    ensures IsErrorWithMessage(error) ==> error.Object? && IsSerializedError(error)
  {
    && TypeOf(error) == "object"
    && error != Null
    && error != Undefined
    && HasKey(error, "message")
    && TypeOf(error.fields["message"]) == "string"
  }

  /** Despite `typeof null == "object"`, the fetch guard holds exactly of
      objects that own a `status` key. */
  lemma FetchGuardCharacterised(error: JsValue)
    ensures IsFetchBaseQueryError(error) <==> error.Object? && "status" in error.fields
  {
  }

  /** The serialized-error guard holds exactly of objects owning one of the
      four keys. */
  lemma SerializedGuardCharacterised(error: JsValue)
    ensures IsSerializedError(error) <==>
              error.Object? && ("message" in error.fields || "name" in error.fields
                                || "code" in error.fields || "stack" in error.fields)
  {
  }

  /** The message guard holds exactly of objects whose `message` is a string,
      and each such value is also a serialized error. */
  lemma MessageGuardCharacterised(error: JsValue)
    ensures IsErrorWithMessage(error) <==>
              error.Object? && "message" in error.fields && error.fields["message"].Str?
    ensures IsErrorWithMessage(error) ==> IsSerializedError(error)
  {
  }

  /** null, undefined, booleans, numbers, strings and functions satisfy none
      of the guards. */
  lemma NonObjectsSatisfyNoGuard(error: JsValue)
    requires !error.Object?
    ensures !IsSerializedError(error)
    ensures !IsFetchBaseQueryError(error)
    ensures !IsErrorWithMessage(error)
  {
  }

  /** The guards are independent: an object can be a query error and a
      serialized error at once, or either one alone. */
  lemma GuardsOverlap()
    ensures var both := Object(map["status" := Num(401), "message" := Str("x")]);
            IsFetchBaseQueryError(both) && IsSerializedError(both)
    ensures var query := Object(map["status" := Num(500)]);
            IsFetchBaseQueryError(query) && !IsSerializedError(query)
    ensures var named := Object(map["name" := Str("AbortError")]);
            !IsFetchBaseQueryError(named) && IsSerializedError(named) && !IsErrorWithMessage(named)
  {
  }

  /** `hasTrueValue`, which the shared helper file is expected to export but
      does not define: some value of the record is true. */
  predicate HasTrueValue(flags: map<string, bool>) {
    exists k :: k in flags && flags[k]
  }
}
